=== FILE: README.md ===
# SimpleBayesianNetwork in Dafny

This project models the learner model of an adaptive tutoring system for the Ukrainian national maths test (NMT). The learner has three latent skills: Algebra, Geometry and Functions. Each skill is Low or High, and each has a two-state prior. A single observed node, Result (Incorrect / Correct), depends on all three skills through a fixed 2 × 8 outcome table. The probability of Correct is (number of High parents weighted 4/2/1 + 1) / 10.

The session supports these operations:
- **Build** the network with the default priors. The defaults are 0.6/0.4, 0.5/0.5 and 0.7/0.3.
- **Update after an answer**:
  1. A heuristic moves the answered skill's kept prior. It multiplies High by 1.3 or 0.7 and divides Low by the same factor. It clamps Low at 0.05 or above and High at 0.95 or below, then renormalises.
  2. The network's tables are rebuilt from the kept priors.
  3. Each skill's belief becomes its exact posterior given the observed Result.
- **Predict success** for a topic: 0.3 + 0.5 × P(High).
- **Name the weakest topic**.
- **Save and load** the network and beliefs through a per-user store.

The model is split into these modules:

| module | models |
|---|---|
| `Wrappers` | `Option` / `Result` |
| `RealArith` | a few product and quotient facts the proofs share |
| `Skills` | levels, skills, priors, the two topic lookups (lower-cased and exact) |
| `OutcomeTable` | the fixed Result table and its column indexing |
| `Heuristic` | the prior update |
| `Inference` | the posterior as a closed-form enumeration; its reference definition (joint distribution, evidence probability) and Bayes' rule connecting them |
| `Tensors` | the numeric arrays the tables hold: shape, flattening, list-of-lists conversion, reshape |
| `Network` | tables, graph, the structural checks done when tables are added and when the model is checked, the fork the session builds, the rebuild after an answer |
| `Beliefs` | the belief state, the prior distribution read off a network, the success estimate, the weakest topic |
| `Codec` | the per-table storage format: the encoder as written, the corrected encoder, the decoder, whole-network load |
| `Learner` | the session: build, update, predict, save, load, and the properties that relate them |

Probabilities are Dafny `real`s, so arithmetic is exact.

## Model

| member | source | states |
|---|---|---|
| Skills.SkillOfTopic | bayesian_network.py:141-147 | the answered topic is lower-cased and matched against the three topic names; any other topic selects Algebra, and a name's own topic always selects that skill |
| Skills.NodeOfKey | bayesian_network.py:229-235 | the success lookup matches the topic exactly (no lower-casing); unmatched topics use Algebra |
| Skills.TopicLookupExamples | bayesian_network.py:141-147 | "GEOMETRY" selects Geometry, "Functions" selects Functions, an unknown topic selects Algebra |
| Skills.DefaultPriorsValid | bayesian_network.py:15-19 | the session's starting priors are distributions |
| OutcomeTable.ColumnsAreStochastic | bayesian_network.py:202-210 | every column of the outcome table sums to one |
| OutcomeTable.EntriesAreTheRows | bayesian_network.py:202-210 | the arithmetic entry rule reproduces the two literal rows, column by column |
| OutcomeTable.EntriesAtLeastOneTenth | bayesian_network.py:205-208 | every likelihood is at least 0.1 |
| OutcomeTable.RaisingOneParent | bayesian_network.py:205-208 | raising one parent from Low to High adds that parent's weight (0.4/0.2/0.1) to P(Correct) and takes it from P(Incorrect) |
| OutcomeTable.CorrectStrictlyIncreasing | bayesian_network.py:205-208 | P(Correct) strictly increases in each parent |
| Heuristic.UpdatePrior | bayesian_network.py:152-162 | the updated prior is a distribution with Low ≥ 0.05 and High ≤ 0.95, proportional to the clamped, scaled pair |
| Heuristic.DenominatorPositive | bayesian_network.py:156-162 | the renormalising total is at least 0.05, so the division is defined |
| Heuristic.CorrectRaisesHigh | bayesian_network.py:155-162 | when Low ≥ 0.05 already, a correct answer never lowers High |
| Heuristic.IncorrectLowersHigh | bayesian_network.py:155-162 | an incorrect answer never raises High |
| Heuristic.CorrectCanLowerOutsideBand | bayesian_network.py:156-162 | outside the band a correct answer can lower High: 0.01/0.99 becomes 0.05/0.95 |
| Heuristic.UpdateSkills | bayesian_network.py:139-168 | only the selected skill's prior changes, and all priors stay distributions |
| Heuristic.DefaultAlgebraAfterCorrect | bayesian_network.py:152-162 | the default Algebra prior after a correct answer is exactly 150/319, 169/319 |
| Inference.UnnormalizedIsJointMass | bayesian_network.py:122-131 | the closed form's unnormalised weight for a level is the joint mass of that level summed over the other two skills |
| Inference.NormaliserIsEvidenceProbability | bayesian_network.py:122-131 | the closed form's normaliser is the probability of the observed answer |
| Inference.EvidenceProbabilitiesSumToOne | bayesian_network.py:202-217 | P(Correct) + P(Incorrect) = 1 for any valid priors |
| Inference.NormaliserAtLeastOneTenth | bayesian_network.py:122-131 | the normaliser is at least 0.1, so the posterior is always defined |
| Inference.Posterior | bayesian_network.py:124-131 | each skill's posterior is a distribution |
| Inference.PosteriorIsBayes | bayesian_network.py:122-131 | posterior weight × P(answer) = joint mass of that level (Bayes' rule against the reference definition) |
| Inference.PosteriorsShareEvidence | bayesian_network.py:122-131 | all three queries share one normaliser |
| Inference.PosteriorHighVersusPrior | bayesian_network.py:122-131 | the change in High times the normaliser equals High·Low·(difference of the nuisance sums) |
| Inference.EvidenceDirection | bayesian_network.py:110-137 | a correct answer never lowers, and an incorrect one never raises, any skill's High; strictly so for priors strictly between 0 and 1 |
| Tensors.ArrayOf | bayesian_network.py:380 | a list of lists builds an array exactly when the rows have equal length; it is then of rank 1 or 2 and flattens back to the same numbers |
| Tensors.RowsOfFlatten | bayesian_network.py:287-288 | splitting a flattened matrix back into rows of its width gives the matrix back |
| Tensors.FlattenRows | bayesian_network.py:287-288 | flattening the rows of a row-major array gives its data |
| Network.NetworkOfIsValid | bayesian_network.py:21-45 | the network built from any priors is the fork and passes the model check |
| Network.ForkParents | bayesian_network.py:26-33 | in the fork, Result's parents are the three skills and the skills have none |
| Network.Rebuild | bayesian_network.py:170-219 | rebuilding keeps nodes and edges, installs the four tables built from the kept priors, keeps any other table, and adds no other key |
| Network.RebuildFork | bayesian_network.py:170-217 | rebuilding a checked fork gives exactly the tables built from the new priors, still a checked fork |
| Beliefs.PriorDistribution | bayesian_network.py:99-108 | the prior distribution has an entry for every table except Result's |
| Beliefs.PriorDistributionOfNetwork | bayesian_network.py:99-108 | the distribution read off the network built from some priors is those priors |
| Beliefs.ZipPrefixLookup | bayesian_network.py:107 | zipping distinct state names with values pairs each name with its own value |
| Beliefs.SuccessEstimate | bayesian_network.py:229-243 | 0.5 without an entry for the node, otherwise 0.3 + 0.5 × High |
| Beliefs.SuccessEstimateRange | bayesian_network.py:236-243 | a High in [0, 1] gives an estimate in [0.3, 0.8]; a missing High gives 0.3 |
| Beliefs.SuccessEstimateMonotone | bayesian_network.py:236-243 | estimates order exactly as the High values do |
| Beliefs.WeakestSkill | bayesian_network.py:251-258 | the chosen skill has the least High, and every skill before it has a strictly larger one (the first minimum) |
| Beliefs.WeakestIsUnique | bayesian_network.py:251-258 | at most one skill satisfies that description |
| Beliefs.WeakestTopic | bayesian_network.py:245-258 | "algebra" for an empty state, else the topic of the first least-High skill |
| Beliefs.FindWeakestTopic | bayesian_network.py:245-258 | a scan in skill order that keeps the first strict minimum returns the same topic |
| Beliefs.WeakestTopicExample | bayesian_network.py:251-258 | High values 0.3 / 0.8 / 0.1 give "functions" |
| Codec.EncodeValuesAsWritten | bayesian_network.py:283-293 | the encoder as written: rank 1 → one value per row, rank 2 → its rows, anything else → one value per row; the values always flatten back to the data |
| Codec.EncodeValues | bayesian_network.py:283-293 | the corrected encoder: rank ≥ 2 → shape[0] rows of the product of the other dimensions; flattens back to the data |
| Codec.EncodersAgreeBelowRankThree | bayesian_network.py:283-289 | the two encoders differ only on arrays of rank three or more |
| Codec.EvidenceCards | bayesian_network.py:392 | one count per evidence variable: with state names, the number of that variable's names; without state names, 2 each; an evidence variable missing from non-empty state names is an error |
| Codec.DecodeArray | bayesian_network.py:375-426 | after the array is built, a table with evidence of rank above two is reshaped to (first dimension, product of the rest) and a marginal of rank one or above two to one column (a single number is left unshaped); a table is accepted only with shape (card, product of the evidence counts), the counts being exactly those line 392 computes, or (card, 1) for a marginal; the accepted table carries the stored variable, evidence, state names and values |
| Codec.DecodeCpd | bayesian_network.py:367-426 | a stored table (rows of numbers; ragged rows rejected) is accepted only if its rows build an array of shape (card, product of the evidence counts), with those counts taken from the state names or 2 each, or (card, 1) for a marginal (an empty list reshapes to (0, 1)); the decoded table is well formed and carries the stored variable, evidence, state names and flattened values |
| Codec.DecodeFullDepth | bayesian_network.py:383-417 | a table stored nested to its full depth (an array of its own shape) loads back as itself: reshaped to (card, product of evidence counts) when its rank is above two, or to one column for a marginal's flat list |
| Codec.DecodeRejectsScalar | bayesian_network.py:413-419 | a single stored number for a table without evidence is not reshaped, so it is rejected |
| Codec.DecodeFourLevelResult | bayesian_network.py:383-388 | the outcome table stored as a four-level 2 × 2 × 2 × 2 list loads back as the outcome table |
| Codec.DecodeAcceptsShape | bayesian_network.py:375-426 | conversely, rows building an array of exactly that shape are accepted |
| Codec.DecodeAll | bayesian_network.py:367-433 | the tables load exactly when every one decodes |
| Codec.EncodeCpd | bayesian_network.py:273-308 | one table is stored with its own evidence and state names and its shape, as rows that flatten back to its values |
| Codec.Serialize | bayesian_network.py:273-308 | every table of the network is stored, under its variable |
| Codec.LoadNetwork | bayesian_network.py:352-437 | a stored network loads exactly when every table decodes and the network of the stored nodes, edges and decoded tables passes the checks; the loaded network is exactly that one |
| Codec.DecodeIgnoresOriginalShape | bayesian_network.py:307 | the recorded original shape plays no part in loading |
| Codec.DecodeEncode | bayesian_network.py:283-426 | a consistent table written by the corrected encoder decodes to the same table |
| Codec.DecodeEncodeAsWrittenLowRank | bayesian_network.py:283-426 | tables of rank 1 or 2 round-trip even through the encoder as written |
| Codec.AsWrittenRejectsHighRank | bayesian_network.py:289-293 | the encoder as written makes a table with two or more evidence variables (product of evidence counts ≥ 2) undecodable |
| Codec.LoadSerialized | bayesian_network.py:260-437 | a checked network with consistent tables, written with the corrected encoder, loads back as itself |
| Codec.NetworkRoundTrip | bayesian_network.py:260-437 | the session's network round-trips through the corrected encoder |
| Codec.StandardCpdsConsistent | bayesian_network.py:49-94 | the four tables the session installs have the counts their state names give |
| Codec.AsWrittenTablesRejected | bayesian_network.py:289-293 | with the encoder as written, the session's tables are rejected, whatever the stored structure |
| Learner.BuildNetwork | bayesian_network.py:21-47 | building installs the default network and beliefs equal to the default priors, and leaves the kept priors alone |
| Learner.BuildNetworkReady | bayesian_network.py:21-47 | a built session is ready for updates |
| Learner.UpdateFromAnswer | bayesian_network.py:110-137 | after an answer: the kept priors are the heuristic update, the tables are the ones built from them, each skill's belief is its posterior, other entries stay |
| Learner.ApplyAnswers | bayesian_network.py:110-137 | any sequence of answers keeps the session ready |
| Learner.UpdateSkillsKeepsBand | bayesian_network.py:152-167 | one answer keeps every kept prior in the band Low ≥ 0.05, High ≤ 0.95 |
| Learner.AnswersKeepBand | bayesian_network.py:139-168 | a sequence of answers keeps the band invariant |
| Learner.FreshSessionStaysInBand | bayesian_network.py:15-19 | from a freshly built session, the kept priors stay in the band for any answers |
| Learner.UpdateIsBayes | bayesian_network.py:122-131 | each stored belief satisfies Bayes' rule on the rebuilt network |
| Learner.UpdateFollowsEvidence | bayesian_network.py:110-137 | posterior High is at least the kept prior's High after a correct answer, at most after an incorrect one; strict inside (0, 1) |
| Learner.FirstCorrectAlgebraPriors | bayesian_network.py:139-168 | a first correct algebra answer: kept High 169/319, posterior High above 169/319 |
| Learner.FirstCorrectAlgebra | bayesian_network.py:110-137 | the same, starting from a freshly built session |
| Learner.PredictSuccess | bayesian_network.py:223-243 | an empty belief state is refilled from the network and a non-empty one kept; when the node's High lies in [0, 1] (or the node is missing) the estimate lies in [0.3, 0.8] |
| Learner.PredictAfterRefill | bayesian_network.py:226-241 | with an empty belief state on the network built from some priors, the estimate is 0.3 + 0.5 × the High of the topic's node in those priors |
| Learner.PredictAfterUpdate | bayesian_network.py:223-243 | after an answer, the estimate for any topic is 0.3 + 0.5 × its node's posterior High, within [0.3, 0.8] |
| Learner.PredictOnDefaults | bayesian_network.py:229-241 | on the default priors: algebra 0.5, geometry 0.55, functions 0.45, "Geometry" (case differs) 0.5 |
| Learner.PredictOnFreshBuild | bayesian_network.py:223-243 | a freshly built session predicts from the default priors |
| Learner.SaveWith | bayesian_network.py:260-330 | nothing without a network; an existing record gets only its beliefs replaced; a new user gets a record of the network's nodes and edges, its tables as the encoder writes them, and the beliefs; other users are untouched |
| Learner.Load | bayesian_network.py:332-459 | unknown user: unchanged, false. Missing structure or tables: default network, true. Rejected tables: default network, false. Kept priors never change |
| Learner.LoadFound | bayesian_network.py:352-450 | a found record whose network loads installs that network with the stored beliefs (read off the network when they are empty), keeps the kept priors, and reports true |
| Learner.LoadedNetworkIsValid | bayesian_network.py:332-459 | after loading a found record, the session's network passes the model check |
| Learner.SaveLoadRoundTrip | bayesian_network.py:260-450 | saving a session for a new user and loading it reinstalls the same network and beliefs, reporting true |
| Learner.AsWrittenSaveLoadFallsBack | bayesian_network.py:283-459 | with the encoder as written, loading a just-saved session fails and resets network and beliefs to the defaults |
| Learner.SecondSaveKeepsFirstTables | bayesian_network.py:313-330 | a second save keeps the first save's tables: after an answer, loading gives the first network with the new beliefs |

## Left out

- The graph library's internals (variable elimination, the DAG check, the tolerance check that columns sum to one, state-name/cardinality validation in the table constructor) are not modelled. The model check is modelled as the four structural conditions in `Network.ValidNetwork`.
- Printing and the database layer are left out. The store is a map from user id to record, so JSON encoding and SQL are not modelled. Floating point is replaced by exact reals.
- Skills.Lower: only ASCII letters are lower-cased. Python's `str.lower` also folds non-ASCII letters.
- Inference.Posterior: the posterior is computed in closed form on the rebuilt tables. The code queries an inference object created when the network was built or loaded. The re-creation after a rebuild is commented out, and the model assumes the query sees the current tables.
- Codec.EncodeCpd: the evidence written is the table's own evidence list. The code reads it through an attribute test on the table object, which is assumed to succeed.
- Beliefs.StateNamesOf: a table without state names for its own variable gets none here. The graph library would supply default integer state names.
- Codec.LoadNetwork: a stored structure without `nodes` or `edges` is represented by empty sequences, as the code reads them with an empty default.
- Codec.DecodeCpd: ragged stored rows are an error. The numeric library would build an object array and fail later in the same try block, so the outcome (the fallback) is the same. Edge lists stored as pairs are assumed well formed.
- Codec.DecodeCpd: stored values are two-level lists of numbers, the only form the save writes. A stored table nested deeper is not representable in a record. The loader's handling of such an array, including the reshape of lines 384-388, is modelled by Codec.DecodeArray, which takes the built array of any rank.
- Learner.UpdateFromAnswer: requires the network to be the checked fork. The code would also update a differently shaped network it had loaded, and the closed-form posterior does not cover that.

## Findings

| source | as written | input that shows it | evidently intended | confidence | as-written member | corrected member |
|---|---|---|---|---|---|---|
| bayesian_network.py:289-293 | a table of rank 3 or more is stored as N×1 (one value per row), but the loader expects (card, product of evidence counts) and has no reshape for a rank-2 array | the Result table, shape 2×2×2×2: it is stored as 16×1, and the loader wants 2×8, so every reload of a saved session falls back to the default network and the default beliefs | store shape[0] rows of the product of the other dimensions (2×8), which the loader accepts | not executed | Codec.EncodeValuesAsWritten, with Codec.AsWrittenRejectsHighRank, Codec.AsWrittenTablesRejected, Learner.AsWrittenSaveLoadFallsBack | Codec.EncodeValues, with Codec.DecodeEncode, Codec.LoadSerialized, Learner.SaveLoadRoundTrip |

## Behaviour worth noting

- After one correct algebra answer, the default Algebra prior becomes exactly 150/319 and 169/319.
- `predict_success` maps an unknown topic to Algebra. It returns 0.5 only when the belief state has no entry for the node. A topic is matched without lower-casing.
- A stored record that lacks structure or tables builds the default network and reports success.
- Loading does not copy a loaded network's prior tables into the kept priors, so the next update starts from the kept priors and rebuilds the tables from them.

=== FILE: arith.dfy ===
/**
 * Small facts about products and quotients that the solver does not find on
 * its own inside larger proofs; stated once here and called where needed.
 */
module RealArith {

  lemma MulNonneg(a: real, b: real)
    requires 0.0 <= a && 0.0 <= b
    ensures 0.0 <= a * b
  {
  }

  lemma MulPos(a: real, b: real)
    requires 0.0 < a && 0.0 < b
    ensures 0.0 < a * b
  {
  }

  lemma MulMono(c: real, a: real, b: real)
    requires 0.0 <= c && a <= b
    ensures c * a <= c * b
  {
  }

  lemma MulMonoStrict(a: real, b: real, c: real)
    requires a < b && c > 0.0
    ensures a * c < b * c
  {
  }

  /** x / t >= h follows from x >= h * t when t is positive. */
  lemma RatioAtLeast(x: real, t: real, h: real)
    requires t > 0.0 && x >= h * t
    ensures x / t >= h
  {
    assert x / t * t == x;
  }

  /** x / t <= h follows from x <= h * t when t is positive. */
  lemma RatioAtMost(x: real, t: real, h: real)
    requires t > 0.0 && x <= h * t
    ensures x / t <= h
  {
    assert x / t * t == x;
  }

  lemma MulAtLeast(a: nat, b: nat)
    requires a >= 1 && b >= 2
    ensures a * b >= 2
  {
  }
}

=== FILE: beliefs.dfy ===
/**
 * The belief state (skill name to state name to probability) and the two
 * read-only queries on it: the success estimate for a topic and the weakest
 * topic.
 */
module Beliefs {
  import opened Skills
  import opened Tensors
  import opened Network

  type Distribution = map<string, real>
  type BeliefState = map<string, Distribution>

  /** `dict(zip(keys, values))` over the first n pairs: a later pair overrides an earlier one. */
  function ZipPrefix(keys: seq<string>, values: seq<real>, n: nat): (m: Distribution)
    requires n <= |keys| && n <= |values|
    ensures m.Keys == set i | 0 <= i < n :: keys[i]
  {
    if n == 0 then map[] else ZipPrefix(keys, values, n - 1)[keys[n - 1] := values[n - 1]]
  }

  /** `dict(zip(keys, values))`: pairs up to the shorter of the two sequences. */
  function ZipMap(keys: seq<string>, values: seq<real>): Distribution {
    ZipPrefix(keys, values, if |keys| <= |values| then |keys| else |values|)
  }

  /** With distinct keys every key is paired with the value at its own position. */
  lemma {:induction false} ZipPrefixLookup(keys: seq<string>, values: seq<real>, n: nat, i: nat)
    requires n <= |keys| && n <= |values| && i < n
    requires forall j, k :: 0 <= j < k < n ==> keys[j] != keys[k]
    ensures keys[i] in ZipPrefix(keys, values, n) && ZipPrefix(keys, values, n)[keys[i]] == values[i]
  {
    if i < n - 1 {
      ZipPrefixLookup(keys, values, n - 1, i);
    }
  }

  /** A two-state distribution with the session's state names. */
  function Dist(p: Prior): (d: Distribution)
    ensures d.Keys == {"Low", "High"} && d["Low"] == p.low && d["High"] == p.high
  {
    map["Low" := p.low, "High" := p.high]
  }

  /** Zipping the level names with a prior's two values gives its distribution. */
  lemma ZipOfLevels(p: Prior)
    ensures ZipMap(LevelNames, [p.low, p.high]) == Dist(p)
  {
    var z := ZipMap(LevelNames, [p.low, p.high]);
    ZipPrefixLookup(LevelNames, [p.low, p.high], 2, 0);
    ZipPrefixLookup(LevelNames, [p.low, p.high], 2, 1);
    assert z.Keys == {"Low", "High"};
  }

  /** State names a table gives its own variable (none when it has no entry for it). */
  function StateNamesOf(c: Cpd): seq<string> {
    if c.variable in c.stateNames then c.stateNames[c.variable] else []
  }

  /** The prior distribution read off the network: every table except Result's, its
      state names zipped with its flattened values. */
  function PriorDistribution(net: Net): (b: BeliefState)
    ensures b.Keys == net.cpds.Keys - {ResultNode}
  {
    map v | v in net.cpds && v != ResultNode :: ZipMap(StateNamesOf(net.cpds[v]), net.cpds[v].values.data)
  }

  /** The belief state holding exactly the three given priors. */
  function BeliefOf(ps: Priors): (b: BeliefState)
    ensures b.Keys == {"Algebra", "Geometry", "Functions"}
    ensures forall s: Skill :: b[s.Name()] == Dist(ps.Get(s))
  {
    map["Algebra" := Dist(ps.algebra), "Geometry" := Dist(ps.geometry), "Functions" := Dist(ps.functions)]
  }

  /** Read off the network built from some priors, the prior distribution is those priors. */
  lemma PriorDistributionOfNetwork(ps: Priors)
    ensures PriorDistribution(NetworkOf(ps)) == BeliefOf(ps)
  {
    var b, c := PriorDistribution(NetworkOf(ps)), BeliefOf(ps);
    assert b.Keys == {"Algebra", "Geometry", "Functions"} by { PriorKeys(ps); }
    assert b["Algebra"] == c["Algebra"] by { PriorEntry(ps, Algebra); }
    assert b["Geometry"] == c["Geometry"] by { PriorEntry(ps, Geometry); }
    assert b["Functions"] == c["Functions"] by { PriorEntryFunctions(ps); }
    SameSkillEntries(b, c);
  }

  /** The Functions entry, stated on the literal key. */
  lemma PriorEntryFunctions(ps: Priors)
    ensures "Functions" in PriorDistribution(NetworkOf(ps))
    ensures PriorDistribution(NetworkOf(ps))["Functions"] == BeliefOf(ps)["Functions"]
  {
    PriorEntry(ps, Functions);
  }

  lemma PriorKeys(ps: Priors)
    ensures PriorDistribution(NetworkOf(ps)).Keys == {"Algebra", "Geometry", "Functions"}
  {
    NetworkOfNodes(ps);
  }

  /** Two belief states over exactly the three skills are equal when their entries are. */
  lemma SameSkillEntries(b: BeliefState, c: BeliefState)
    requires b.Keys == {"Algebra", "Geometry", "Functions"} && c.Keys == b.Keys
    requires b["Algebra"] == c["Algebra"] && b["Geometry"] == c["Geometry"] && b["Functions"] == c["Functions"]
    ensures b == c
  {
  }

  lemma PriorEntry(ps: Priors, s: Skill)
    ensures s.Name() in PriorDistribution(NetworkOf(ps))
    ensures PriorDistribution(NetworkOf(ps))[s.Name()] == BeliefOf(ps)[s.Name()]
  {
    var c := NetworkOf(ps).cpds[s.Name()];
    assert c == PriorCpd(s, ps.Get(s));
    assert StateNamesOf(c) == LevelNames;
    ZipOfLevels(ps.Get(s));
  }

  // ---------------------------------------------------------------------
  // Queries.

  /** `state.get(node, {}).get('High', 0)`. */
  function HighOf(b: BeliefState, node: string): real {
    if node in b && "High" in b[node] then b[node]["High"] else 0.0
  }

  /** The success estimate for a topic: the case-sensitive node lookup (unknown topics
      use Algebra), then High * 0.8 + (1 - High) * 0.3, or 0.5 when the node has no entry. */
  function SuccessEstimate(b: BeliefState, topic: string): (r: real)
    ensures NodeOfKey(topic).Name() !in b ==> r == 0.5
    ensures NodeOfKey(topic).Name() in b ==> r == 0.3 + 0.5 * HighOf(b, NodeOfKey(topic).Name())
  {
    var node := NodeOfKey(topic).Name();
    if node in b then
      var h := if "High" in b[node] then b[node]["High"] else 0.0;
      h * 0.8 + (1.0 - h) * 0.3
    else
      0.5
  }

  /** For a High probability in [0, 1] the estimate lies in [0.3, 0.8]; a missing High gives 0.3. */
  lemma SuccessEstimateRange(b: BeliefState, topic: string)
    requires NodeOfKey(topic).Name() in b
    ensures 0.0 <= HighOf(b, NodeOfKey(topic).Name()) <= 1.0 ==> 0.3 <= SuccessEstimate(b, topic) <= 0.8
    ensures "High" !in b[NodeOfKey(topic).Name()] ==> SuccessEstimate(b, topic) == 0.3
  {
  }

  /** The estimate orders topics by their High probability, strictly. */
  lemma SuccessEstimateMonotone(b: BeliefState, c: BeliefState, topic: string)
    requires NodeOfKey(topic).Name() in b && NodeOfKey(topic).Name() in c
    ensures HighOf(b, NodeOfKey(topic).Name()) <= HighOf(c, NodeOfKey(topic).Name())
      <==> SuccessEstimate(b, topic) <= SuccessEstimate(c, topic)
  {
  }

  /** s has the least High value, and every skill before it in order has a larger one:
      the item Python's `min` picks. */
  predicate IsWeakest(b: BeliefState, s: Skill) {
    (forall t: Skill :: HighOf(b, s.Name()) <= HighOf(b, t.Name()))
    && (forall t: Skill :: t.Ordinal() < s.Ordinal() ==> HighOf(b, s.Name()) < HighOf(b, t.Name()))
  }

  /** The first skill, in order, with the least High value. */
  function WeakestSkill(b: BeliefState): (s: Skill)
    ensures IsWeakest(b, s)
  {
    var a, g, f := HighOf(b, "Algebra"), HighOf(b, "Geometry"), HighOf(b, "Functions");
    if a <= g && a <= f then Algebra
    else if g <= f then Geometry
    else Functions
  }

  /** At most one skill is the weakest. */
  lemma WeakestIsUnique(b: BeliefState, s: Skill, t: Skill)
    requires IsWeakest(b, s) && IsWeakest(b, t)
    ensures s == t
  {
    assert HighOf(b, s.Name()) == HighOf(b, t.Name());
    assert s.Ordinal() == t.Ordinal();
  }

  /** The weakest topic: "algebra" for an empty state, else the weakest skill's topic name. */
  function WeakestTopic(b: BeliefState): (topic: string)
    ensures |b| == 0 ==> topic == "algebra"
    ensures |b| > 0 ==> exists s: Skill :: IsWeakest(b, s) && topic == s.Topic()
  {
    if |b| == 0 then "algebra" else WeakestSkill(b).Topic()
  }

  /** The weakest topic by a scan in enumeration order that keeps the first strict minimum. */
  method FindWeakestTopic(b: BeliefState) returns (topic: string)
    ensures topic == WeakestTopic(b)
  {
    if |b| == 0 {
      return "algebra";
    }
    var best := AllSkills[0];
    var i := 1;
    while i < |AllSkills|
      invariant 1 <= i <= |AllSkills|
      invariant best.Ordinal() < i
      invariant forall j :: 0 <= j < i ==> HighOf(b, best.Name()) <= HighOf(b, AllSkills[j].Name())
      invariant forall j :: 0 <= j < best.Ordinal() ==> HighOf(b, best.Name()) < HighOf(b, AllSkills[j].Name())
    {
      if HighOf(b, AllSkills[i].Name()) < HighOf(b, best.Name()) {
        best := AllSkills[i];
      }
      i := i + 1;
    }
    assert forall t: Skill :: t == AllSkills[t.Ordinal()];
    WeakestIsUnique(b, best, WeakestSkill(b));
    topic := best.Topic();
  }

  /** High values 0.3 / 0.8 / 0.1 make Functions the weakest topic. */
  lemma WeakestTopicExample()
    ensures WeakestTopic(map["Algebra" := map["High" := 0.3], "Geometry" := map["High" := 0.8],
                             "Functions" := map["High" := 0.1]]) == "functions"
  {
    var b := map["Algebra" := map["High" := 0.3], "Geometry" := map["High" := 0.8],
                 "Functions" := map["High" := 0.1]];
    assert "Algebra" in b;
    assert WeakestSkill(b) == Functions;
  }
}

=== FILE: codec.dfy ===
/**
 * The persistence codec: each table is written as its values in list-of-lists
 * form, its evidence, its state names and its original shape; loading rebuilds
 * each table from those fields, then the network from its stored structure,
 * and runs the structural checks.
 */
module Codec {
  import opened Wrappers
  import opened RealArith
  import opened Tensors
  import opened Skills
  import opened Network

  /** The stored fields of one table. */
  datatype CptParams = CptParams(values: seq<seq<real>>, evidence: seq<string>,
                                 stateNames: map<string, seq<string>>, originalShape: seq<nat>)

  /** The stored graph: node list and edge list. */
  datatype Structure = Structure(nodes: seq<string>, edges: seq<Edge>)

  /** Why a stored network is rejected; every one of these ends in the fallback. */
  datatype LoadError =
    | Ragged(variable: string)
    | UnknownStateNames(variable: string)
    | ShapeMismatch(variable: string, expected: seq<nat>, actual: seq<nat>)
    | NoRowCount(variable: string)
    | TableRejected
    | TableOutsideModel
    | CheckFailed

  /** Which of the two encoders writes rank >= 3 tables. */
  datatype Encoding = AsWritten | Corrected

  // ---------------------------------------------------------------------
  // Encoding.

  /**
   * The encoder as written: a rank-1 array becomes one row per element, a
   * rank-2 array its rows, and anything else its flattened elements one per
   * row (or `[[]]` when there are none).
   */
  function EncodeValuesAsWritten(t: Tensor): (rows: seq<seq<real>>)
    requires WellShaped(t)
    ensures Flatten(rows) == t.data
    ensures t.Rank() == 1 ==> rows == Column(t.data)
    ensures t.Rank() == 2 ==> |rows| == t.shape[0] && forall i :: 0 <= i < |rows| ==> |rows[i]| == t.shape[1]
    ensures t.Rank() != 1 && t.Rank() != 2 && |t.data| > 0 ==> rows == Column(t.data)
    ensures t.Rank() != 1 && t.Rank() != 2 && |t.data| == 0 ==> rows == [[]]
  {
    FlattenColumn(t.data);
    if t.Rank() == 1 then
      Column(t.data)
    else if t.Rank() == 2 then
      assert t.shape == [t.shape[0], t.shape[1]];
      ProductOfTwo(t.shape[0], t.shape[1]);
      FlattenRows(t.data, t.shape[1], t.shape[0]);
      Rows(t.data, t.shape[1], t.shape[0])
    else if |t.data| > 0 then
      Column(t.data)
    else
      assert Flatten([[]]) == [] + Flatten([]);
      [[]]
  }

  /**
   * The corrected encoder: as written for rank 1, and for rank >= 2 the rows
   * of the (shape[0], product of the other dimensions) matrix, which is what
   * the loader expects for a table with evidence.
   */
  function EncodeValues(t: Tensor): (rows: seq<seq<real>>)
    requires WellShaped(t)
    ensures Flatten(rows) == t.data
    ensures t.Rank() <= 1 ==> rows == Column(t.data)
    ensures t.Rank() >= 2 ==> |rows| == t.shape[0]
    ensures t.Rank() >= 2 ==> forall i :: 0 <= i < |rows| ==> |rows[i]| == Product(t.shape[1..])
  {
    FlattenColumn(t.data);
    if t.Rank() >= 2 then
      ProductCons(t.shape[0], t.shape[1..]);
      assert t.shape == [t.shape[0]] + t.shape[1..];
      FlattenRows(t.data, Product(t.shape[1..]), t.shape[0]);
      Rows(t.data, Product(t.shape[1..]), t.shape[0])
    else
      Column(t.data)
  }

  function Encode(e: Encoding, t: Tensor): (rows: seq<seq<real>>)
    requires WellShaped(t)
  {
    match e
    case AsWritten => EncodeValuesAsWritten(t)
    case Corrected => EncodeValues(t)
  }

  /** The two encoders differ only on arrays of rank three or more. */
  lemma EncodersAgreeBelowRankThree(t: Tensor)
    requires WellShaped(t) && t.Rank() <= 2
    ensures EncodeValuesAsWritten(t) == EncodeValues(t)
  {
    if t.Rank() == 2 {
      assert t.shape[1..] == [t.shape[1]];
      assert Product(t.shape[1..]) == t.shape[1] * Product([]);
    }
  }

  /** The stored fields of one table; the shape is recorded as it was. */
  function EncodeCpd(e: Encoding, c: Cpd): (p: CptParams)
    requires c.WellFormed()
    ensures p.evidence == c.evidence && p.stateNames == c.stateNames && p.originalShape == c.values.shape
    ensures Flatten(p.values) == c.values.data
  {
    CptParams(Encode(e, c.values), c.evidence, c.stateNames, c.values.shape)
  }

  /** Every table of the network, by variable. */
  function Serialize(e: Encoding, net: Net): (m: map<string, CptParams>)
    requires TablesInModel(net)
    ensures m.Keys == net.cpds.Keys
  {
    map v | v in net.cpds :: EncodeCpd(e, net.cpds[v])
  }

  function StructureOf(net: Net): Structure {
    Structure(net.nodes, net.edges)
  }

  // ---------------------------------------------------------------------
  // Decoding.

  function Need<T>(o: Option<T>, err: LoadError): (r: Result<T, LoadError>)
    ensures r.Success? <==> o.Some?
    ensures r.Success? ==> r.value == o.value
  {
    match o
    case Some(v) => Success(v)
    case None => Failure(err)
  }

  /** Cardinality of a variable: the number of its state names, or 2 when it has none. */
  function CardOf(stateNames: map<string, seq<string>>, v: string): nat {
    if v in stateNames then |stateNames[v]| else 2
  }

  /** Evidence cardinalities: from the state names when there are any (a missing
      entry is an error), else 2 for each evidence variable. */
  function EvidenceCards(stateNames: map<string, seq<string>>, evidence: seq<string>): (r: Result<seq<nat>, LoadError>)
    ensures r.Success? ==> |r.value| == |evidence|
    ensures r.Success? ==> forall i :: 0 <= i < |evidence| ==> r.value[i] == CardOf(stateNames, evidence[i])
    ensures r.Failure? <==> |stateNames| > 0 && exists e :: e in evidence && e !in stateNames
  {
    if |stateNames| == 0 then
      Success(seq(|evidence|, i => 2))
    else if forall e :: e in evidence ==> e in stateNames then
      Success(seq(|evidence|, i requires 0 <= i < |evidence| => |stateNames[evidence[i]]|))
    else
      Failure(UnknownStateNames(if |evidence| > 0 then evidence[0] else ""))
  }

  /**
   * The loader's steps after `np.array`, for an array of any rank (a stored
   * list may be nested to any depth). With evidence: an array of rank above
   * two is reshaped to (first dimension, -1), which numpy refuses when the
   * first dimension is 0; then the shape must be (card, product of evidence
   * cards). Without evidence: an array of rank one or above two is reshaped
   * to (-1, 1), a single number (rank zero) is left as it is; then the shape
   * must be (card, 1).
   */
  function DecodeArray(v: string, a: Tensor, p: CptParams): (r: Result<Cpd, LoadError>)
    requires WellShaped(a)
    ensures r.Success? ==> r.value.variable == v && r.value.WellFormed()
    ensures r.Success? ==> r.value.evidence == p.evidence && r.value.stateNames == p.stateNames
    ensures r.Success? ==> r.value.card == CardOf(p.stateNames, v) && r.value.values.data == a.data
    ensures r.Success? && |p.evidence| > 0 ==>
      EvidenceCards(p.stateNames, p.evidence) == Success(r.value.evidenceCard)
      && (a.shape == [r.value.card, Product(r.value.evidenceCard)]
          || (a.Rank() > 2 && a.shape[0] == r.value.card > 0))
    ensures r.Success? && |p.evidence| == 0 ==>
      r.value.evidenceCard == [] && (a.shape == [r.value.card, 1] || ((a.Rank() == 1 || a.Rank() > 2) && |a.data| == r.value.card))
  {
    var card := CardOf(p.stateNames, v);
    if |p.evidence| > 0 then
      var b :- if a.Rank() <= 2 then Success(a)
               else if a.shape[0] == 0 then Failure(NoRowCount(v))
               else Success(ReshapeRows(a));
      var cards :- EvidenceCards(p.stateNames, p.evidence);
      if b.shape != [card, Product(cards)] then
        Failure(ShapeMismatch(v, [card, Product(cards)], b.shape))
      else
        ProductOfTwo(card, Product(cards));
        ProductCons(card, cards);
        Success(Cpd(v, card, Tensor([card] + cards, b.data), p.evidence, cards, p.stateNames))
    else
      var b := if a.Rank() == 1 || a.Rank() > 2 then ReshapeColumn(a) else a;
      if b.shape != [card, 1] then
        Failure(ShapeMismatch(v, [card, 1], b.shape))
      else
        ProductOfTwo(card, 1);
        ProductCons(card, []);
        Success(Cpd(v, card, Tensor([card], b.data), [], [], p.stateNames))
  }

  /**
   * One stored table back to a table: build the array from the stored rows
   * (ragged rows are rejected), then the steps above. The recorded original
   * shape is not read. Rows of numbers build an array of rank one or two, so
   * of the two reshapes only the marginal one applies here, to the empty list.
   */
  function DecodeCpd(v: string, p: CptParams): (r: Result<Cpd, LoadError>)
    ensures r.Success? ==> r.value.variable == v && r.value.WellFormed()
    ensures r.Success? ==> r.value.evidence == p.evidence && r.value.stateNames == p.stateNames
    ensures r.Success? ==> r.value.card == CardOf(p.stateNames, v) && r.value.values.data == Flatten(p.values)
    ensures r.Success? && |p.evidence| > 0 ==>
      EvidenceCards(p.stateNames, p.evidence) == Success(r.value.evidenceCard)
      && ArrayOf(p.values).Some? && ArrayOf(p.values).value.shape == [r.value.card, Product(r.value.evidenceCard)]
    ensures r.Success? && |p.evidence| == 0 ==>
      ArrayOf(p.values).Some?
      && (ArrayOf(p.values).value.shape == [r.value.card, 1] || (|p.values| == 0 && r.value.card == 0))
  {
    var a :- Need(ArrayOf(p.values), Ragged(v));
    DecodeArray(v, a, p)
  }

  /** Every stored table decodes, or the load fails. */
  function DecodeAll(cpts: map<string, CptParams>): (r: Result<map<string, Cpd>, LoadError>)
    ensures r.Success? <==> forall v :: v in cpts ==> DecodeCpd(v, cpts[v]).Success?
    ensures r.Success? ==> r.value.Keys == cpts.Keys
    ensures r.Success? ==> forall v :: v in cpts ==> r.value[v] == DecodeCpd(v, cpts[v]).value
  {
    if forall v :: v in cpts ==> DecodeCpd(v, cpts[v]).Success? then
      Success(map v | v in cpts :: DecodeCpd(v, cpts[v]).value)
    else
      Failure(TableRejected)
  }

  /** The network from its stored structure and tables, if it passes the checks made
      when the tables are added and when the model is checked. */
  function LoadNetwork(s: Structure, cpts: map<string, CptParams>): (r: Result<Net, LoadError>)
    ensures r.Success? <==> DecodeAll(cpts).Success? && ValidNetwork(Net(s.nodes, s.edges, DecodeAll(cpts).value))
    ensures r.Success? ==> ValidNetwork(r.value)
    ensures r.Success? ==> r.value == Net(s.nodes, s.edges, DecodeAll(cpts).value)
  {
    var cpds :- DecodeAll(cpts);
    var net := Net(s.nodes, s.edges, cpds);
    if !TablesInModel(net) then Failure(TableOutsideModel)
    else if !ValidNetwork(net) then Failure(CheckFailed)
    else Success(net)
  }

  // ---------------------------------------------------------------------
  // Round trip.

  /** A table whose cardinalities are the ones its state names give, as every table the
      session builds is. */
  predicate Consistent(c: Cpd) {
    c.WellFormed() && c.card > 0 && c.card == CardOf(c.stateNames, c.variable)
    && EvidenceCards(c.stateNames, c.evidence) == Success(c.evidenceCard)
  }

  /** Conversely, a table with evidence whose array has shape (card, product of evidence
      cards), or a marginal whose array has shape (card, 1), is accepted. */
  lemma DecodeAcceptsShape(v: string, p: CptParams)
    requires Uniform(p.values)
    requires |p.evidence| > 0 ==>
      (EvidenceCards(p.stateNames, p.evidence).Success?
       && ArrayOf(p.values).value.shape
          == [CardOf(p.stateNames, v), Product(EvidenceCards(p.stateNames, p.evidence).value)])
    requires |p.evidence| == 0 ==> ArrayOf(p.values).value.shape == [CardOf(p.stateNames, v), 1]
    ensures DecodeCpd(v, p).Success?
  {
  }

  /** The recorded original shape plays no part in loading. */
  lemma DecodeIgnoresOriginalShape(v: string, p: CptParams, shape: seq<nat>)
    ensures DecodeCpd(v, p.(originalShape := shape)) == DecodeCpd(v, p)
  {
  }

  /** A table written by the corrected encoder loads back as the same table. */
  lemma DecodeEncode(c: Cpd)
    requires Consistent(c)
    ensures DecodeCpd(c.variable, EncodeCpd(Corrected, c)) == Success(c)
  {
    var p := EncodeCpd(Corrected, c);
    var t := c.values;
    if |c.evidence| > 0 {
      var width := Product(t.shape[1..]);
      assert t.shape[1..] == c.evidenceCard;
      ProductCons(c.card, c.evidenceCard);
      RowsOfFlatten(p.values, width);
      var a := ArrayOf(p.values);
      assert Uniform(p.values);
      assert a.value.shape == [c.card, width];
    } else {
      assert t.shape == [c.card];
      assert |t.data| == c.card by {
        ProductCons(c.card, []);
      }
      assert Uniform(p.values);
      assert c.evidenceCard == [];
    }
  }

  /** Tables of rank one or two load back even from the encoder as written. */
  lemma DecodeEncodeAsWrittenLowRank(c: Cpd)
    requires Consistent(c) && c.values.Rank() <= 2
    ensures DecodeCpd(c.variable, EncodeCpd(AsWritten, c)) == Success(c)
  {
    EncodersAgreeBelowRankThree(c.values);
    DecodeEncode(c);
  }

  /**
   * A stored list nested to the table's full depth, which numpy reads back as
   * an array of the table's own shape, loads as the same table: a table with
   * evidence is reshaped to (card, product of evidence cards) when its rank is
   * above two, and a marginal's flat list is reshaped to (card, 1).
   */
  lemma DecodeFullDepth(c: Cpd, p: CptParams)
    requires Consistent(c) && p.evidence == c.evidence && p.stateNames == c.stateNames
    ensures DecodeArray(c.variable, c.values, p) == Success(c)
  {
    var t := c.values;
    ProductCons(c.card, c.evidenceCard);
    if |c.evidence| > 0 {
      assert t.shape[0] == c.card && t.shape[1..] == c.evidenceCard;
      if t.Rank() <= 2 {
        assert c.evidenceCard == [c.evidenceCard[0]];
        assert Product(c.evidenceCard) == c.evidenceCard[0] * Product([]);
      }
    } else {
      assert c.evidenceCard == [];
      assert t.shape == [c.card];
    }
  }

  /** A single stored number for a table without evidence is not reshaped, so it never
      has the shape (card, 1) and is rejected. */
  lemma DecodeRejectsScalar(v: string, x: real, p: CptParams)
    requires |p.evidence| == 0
    ensures DecodeArray(v, Tensor([], [x]), p).Failure?
  {
  }

  /** In particular the outcome table stored as a four-level list loads back. */
  lemma DecodeFourLevelResult(p: CptParams)
    requires p.evidence == SkillNames && p.stateNames == ResultCpd().stateNames
    ensures ResultCpd().values.shape == [2, 2, 2, 2]
    ensures DecodeArray(ResultNode, ResultCpd().values, p) == Success(ResultCpd())
  {
    ResultConsistent();
    DecodeFullDepth(ResultCpd(), p);
  }

  /**
   * The encoder as written stores a table with two or more evidence variables
   * (rank >= 3) as N x 1; the loader does not reshape a rank-2 array and N x 1
   * is not (card, product of evidence cards) when that product is at least 2,
   * so the table is rejected.
   */
  lemma AsWrittenRejectsHighRank(c: Cpd)
    requires Consistent(c) && |c.evidence| >= 2 && Product(c.evidenceCard) >= 2
    ensures DecodeCpd(c.variable, EncodeCpd(AsWritten, c)).Failure?
  {
    var t := c.values;
    ProductCons(c.card, c.evidenceCard);
    assert |t.data| == c.card * Product(c.evidenceCard);
    assert |t.data| >= 2 by {
      MulAtLeast(c.card, Product(c.evidenceCard));
    }
    var p := EncodeCpd(AsWritten, c);
    assert p.values == Column(t.data);
    assert Uniform(p.values);
  }

  /** A checked network whose tables are all consistent loads back as itself. */
  lemma LoadSerialized(net: Net)
    requires ValidNetwork(net)
    requires forall v :: v in net.cpds ==> Consistent(net.cpds[v])
    ensures LoadNetwork(StructureOf(net), Serialize(Corrected, net)) == Success(net)
  {
    DecodeSerialized(net);
    assert Net(net.nodes, net.edges, net.cpds) == net;
  }

  /** Every table written by the corrected encoder decodes back. */
  lemma DecodeSerialized(net: Net)
    requires TablesInModel(net)
    requires forall v :: v in net.cpds ==> Consistent(net.cpds[v])
    ensures DecodeAll(Serialize(Corrected, net)) == Success(net.cpds)
  {
    var cpts := Serialize(Corrected, net);
    forall v | v in cpts ensures DecodeCpd(v, cpts[v]) == Success(net.cpds[v]) {
      assert cpts[v] == EncodeCpd(Corrected, net.cpds[v]);
      DecodeEncode(net.cpds[v]);
    }
    DecodeAllOf(cpts, net.cpds);
  }

  /** Tables that each decode to the matching entry of m decode together to m. */
  lemma DecodeAllOf(cpts: map<string, CptParams>, m: map<string, Cpd>)
    requires cpts.Keys == m.Keys
    requires forall v :: v in cpts ==> DecodeCpd(v, cpts[v]) == Success(m[v])
    ensures DecodeAll(cpts) == Success(m)
  {
    assert DecodeAll(cpts).value == m;
  }

  /** The session's four tables are consistent with their state names. */
  lemma StandardCpdsConsistent(ps: Priors)
    ensures forall v :: v in StandardCpds(ps) ==> Consistent(StandardCpds(ps)[v])
  {
    PriorConsistent(Algebra, ps.algebra);
    PriorConsistent(Geometry, ps.geometry);
    PriorConsistent(Functions, ps.functions);
    ResultConsistent();
  }

  lemma PriorConsistent(s: Skill, p: Prior)
    ensures Consistent(PriorCpd(s, p))
  {
  }

  lemma ResultConsistent()
    ensures Consistent(ResultCpd())
  {
    var c := ResultCpd();
    assert forall e :: e in c.evidence ==> e in c.stateNames;
    assert EvidenceCards(c.stateNames, c.evidence).value == [2, 2, 2];
  }

  /** Saving the session's network and loading it back gives the same network. */
  lemma NetworkRoundTrip(ps: Priors)
    ensures LoadNetwork(StructureOf(NetworkOf(ps)), Serialize(Corrected, NetworkOf(ps))) == Success(NetworkOf(ps))
  {
    NetworkOfIsValid(ps);
    StandardCpdsConsistent(ps);
    LoadSerialized(NetworkOf(ps));
  }

  /** With the encoder as written, the session's tables never load back, whatever the
      stored structure: the outcome table has three evidence variables of two states each. */
  lemma AsWrittenTablesRejected(net: Net, ps: Priors, st: Structure)
    requires TablesInModel(net) && net.cpds == StandardCpds(ps)
    ensures LoadNetwork(st, Serialize(AsWritten, net)).Failure?
  {
    var c := ResultCpd();
    ResultConsistent();
    assert Product(c.evidenceCard) == 8 by {
      ProductCons(2, [2, 2]);
      ProductOfTwo(2, 2);
    }
    AsWrittenRejectsHighRank(c);
    var cpts := Serialize(AsWritten, net);
    assert cpts[ResultNode] == EncodeCpd(AsWritten, c);
    assert DecodeAll(cpts).Failure?;
  }
}

=== FILE: heuristic.dfy ===
/**
 * The heuristic prior update applied before inference: the answered skill's
 * prior is scaled towards High (correct) or Low (incorrect), clamped, and
 * renormalised; the other two priors are copied unchanged.
 */
module Heuristic {
  import opened Skills
  import opened RealArith

  const CorrectFactor: real := 1.3
  const IncorrectFactor: real := 0.7
  /** Lower clamp for the scaled Low entry. */
  const LowFloor: real := 0.05
  /** Upper clamp for the scaled High entry. */
  const HighCeiling: real := 0.95

  function Factor(isCorrect: bool): (k: real)
    ensures k > 0.0
  {
    if isCorrect then CorrectFactor else IncorrectFactor
  }

  function Max(a: real, b: real): real { if a >= b then a else b }
  function Min(a: real, b: real): real { if a <= b then a else b }

  /** Clamped but not yet renormalised Low entry. */
  function ScaledLow(p: Prior, isCorrect: bool): real {
    Max(LowFloor, p.low / Factor(isCorrect))
  }

  /** Clamped but not yet renormalised High entry. */
  function ScaledHigh(p: Prior, isCorrect: bool): real {
    Min(HighCeiling, p.high * Factor(isCorrect))
  }

  /** The renormalising denominator never drops below the Low floor, so it is never zero. */
  lemma DenominatorPositive(p: Prior, isCorrect: bool)
    requires ValidPrior(p)
    ensures ScaledLow(p, isCorrect) + ScaledHigh(p, isCorrect) >= LowFloor
  {
  }

  /** The clamped High entry lies in [0, 0.95]. */
  lemma ScaledHighInBand(p: Prior, isCorrect: bool)
    requires ValidPrior(p)
    ensures 0.0 <= ScaledHigh(p, isCorrect) <= HighCeiling
  {
    var k := Factor(isCorrect);
    assert 0.0 <= p.high * k;
  }

  /** One step of the rule on the answered skill's prior. */
  function UpdatePrior(p: Prior, isCorrect: bool): (q: Prior)
    requires ValidPrior(p)
    ensures ValidPrior(q)
    ensures q.low >= LowFloor && q.high <= HighCeiling
    ensures Rescales(q, ScaledLow(p, isCorrect), ScaledHigh(p, isCorrect))
  {
    var lo := ScaledLow(p, isCorrect);
    var hi := ScaledHigh(p, isCorrect);
    ScaledHighInBand(p, isCorrect);
    BoundsAfterRenormalising(lo, hi);
    Prior(lo / (lo + hi), hi / (lo + hi))
  }

  /** q is the pair (lo, hi) scaled by one common factor: q.low : q.high = lo : hi. */
  predicate Rescales(q: Prior, lo: real, hi: real)
  {
    q.low * (lo + hi) == lo && q.high * (lo + hi) == hi
  }

  /** Renormalising a pair with lo >= 0.05 and 0 <= hi <= 0.95 keeps Low >= 0.05 and High <= 0.95. */
  lemma BoundsAfterRenormalising(lo: real, hi: real)
    requires lo >= LowFloor && 0.0 <= hi <= HighCeiling
    ensures lo / (lo + hi) >= LowFloor
    ensures hi / (lo + hi) <= HighCeiling
    ensures lo / (lo + hi) + hi / (lo + hi) == 1.0
    ensures 0.0 <= hi / (lo + hi)
    ensures Rescales(Prior(lo / (lo + hi), hi / (lo + hi)), lo, hi)
  {
    var t := lo + hi;
    assert hi <= 19.0 * lo;
    assert lo >= LowFloor * t;
    assert lo / t >= LowFloor by {
      assert lo / t * t == lo;
    }
    assert (lo + hi) / t == 1.0;
  }

  /** A correct answer never lowers the High entry of a prior inside the clamp band
      (every prior the session holds is: the defaults are, and the rule keeps Low >= 0.05). */
  lemma CorrectRaisesHigh(p: Prior)
    requires ValidPrior(p) && p.low >= LowFloor
    ensures UpdatePrior(p, true).high >= p.high
  {
    var lo := ScaledLow(p, true);
    var hi := ScaledHigh(p, true);
    DenominatorPositive(p, true);
    var t := lo + hi;
    // the goal, multiplied out: hi * low >= high * lo
    if p.high * CorrectFactor <= HighCeiling {
      assert hi == 1.3 * p.high;
      assert p.low >= 0.065;
      assert lo * 1.3 == p.low;
      assert p.high * p.low >= 0.0;
      assert hi * p.low * 1.3 == 1.69 * p.high * p.low;
      assert p.high * lo * 1.3 == p.high * p.low;
      assert hi * p.low >= p.high * lo;
    } else {
      assert hi == HighCeiling;
      if p.low / CorrectFactor >= LowFloor {
        assert lo * 1.3 == p.low;
        assert p.high * lo * 1.3 == p.high * p.low;
        assert hi * p.low * 1.3 >= p.high * p.low;
      } else {
        assert lo == LowFloor;
        assert hi * p.low >= 0.95 * 0.05;
        assert p.high * lo <= 0.95 * 0.05;
      }
      assert hi * p.low >= p.high * lo;
    }
    assert hi >= p.high * t;
    RatioAtLeast(hi, t, p.high);
  }

  /** Outside the clamp band the rule can lower High even after a correct answer:
      0.01/0.99 becomes 0.05/0.95. */
  lemma CorrectCanLowerOutsideBand()
    ensures UpdatePrior(Prior(0.01, 0.99), true) == Prior(0.05, 0.95)
  {
    assert ScaledLow(Prior(0.01, 0.99), true) == 0.05;
    assert ScaledHigh(Prior(0.01, 0.99), true) == 0.95;
  }

  /** An incorrect answer never raises the High entry. */
  lemma IncorrectLowersHigh(p: Prior)
    requires ValidPrior(p)
    ensures UpdatePrior(p, false).high <= p.high
  {
    var lo := ScaledLow(p, false);
    var hi := ScaledHigh(p, false);
    DenominatorPositive(p, false);
    var t := lo + hi;
    assert lo >= p.low;
    assert hi == 0.7 * p.high;
    assert p.high * p.low >= 0.0;
    assert p.high * lo >= p.high * p.low;
    assert hi * p.low <= p.high * lo;
    assert hi <= p.high * t;
    RatioAtMost(hi, t, p.high);
  }

  /** The answered topic's skill (case-insensitive, unknown topics meaning Algebra) gets one
      step of the rule; the two other priors are copied exactly. */
  function UpdateSkills(ps: Priors, topic: string, isCorrect: bool): (r: Priors)
    requires ValidPriors(ps)
    ensures ValidPriors(r)
    ensures r.Get(SkillOfTopic(topic)) == UpdatePrior(ps.Get(SkillOfTopic(topic)), isCorrect)
    ensures forall s: Skill :: s != SkillOfTopic(topic) ==> r.Get(s) == ps.Get(s)
  {
    var target := SkillOfTopic(topic);
    var r := ps.With(target, UpdatePrior(ps.Get(target), isCorrect));
    assert forall s: Skill :: ValidPrior(r.Get(s)) by {
      forall s: Skill ensures ValidPrior(r.Get(s)) {
        if s != target {
          assert ValidPrior(ps.Get(s));
        }
      }
    }
    r
  }

  /** From the default Algebra prior 0.6/0.4, one correct answer gives 150/319 and 169/319. */
  lemma DefaultAlgebraAfterCorrect()
    ensures UpdatePrior(Prior(0.6, 0.4), true).low * 319.0 == 150.0
    ensures UpdatePrior(Prior(0.6, 0.4), true).high * 319.0 == 169.0
  {
    var p := Prior(0.6, 0.4);
    assert ScaledLow(p, true) == 6.0 / 13.0;
    assert ScaledHigh(p, true) == 0.52;
  }
}

=== FILE: inference.dfy ===
/**
 * Exact posterior of each skill given the observed Result, by enumeration over
 * the two other skills' states. The network is a fork (three independent
 * roots, one child), so summing the two nuisance skills out is all that
 * variable elimination does for a single-skill query.
 */
module Inference {
  import opened Skills
  import opened RealArith
  import opened OutcomeTable

  /** The two other skills, in enumeration order. */
  function Others(s: Skill): (o: (Skill, Skill))
    ensures o.0 != s && o.1 != s && o.0 != o.1
  {
    match s
    case Algebra => (Geometry, Functions)
    case Geometry => (Algebra, Functions)
    case Functions => (Algebra, Geometry)
  }

  /** One term of the enumeration: P(y) * P(z) * P(Result = r | s = x, y, z). */
  function Term(ps: Priors, r: Answer, s: Skill, x: Level, y: Level, z: Level): real {
    ps.Get(Others(s).0).Weight(y) * ps.Get(Others(s).1).Weight(z) * CellLikelihood(r, s, x, y, z)
  }

  /** Sum of the terms over the 2 x 2 nuisance states. */
  function NuisanceSum(ps: Priors, r: Answer, s: Skill, x: Level): real {
    Term(ps, r, s, x, Low, Low) + Term(ps, r, s, x, Low, High)
    + Term(ps, r, s, x, High, Low) + Term(ps, r, s, x, High, High)
  }

  /** Unnormalised posterior weight of s = x. */
  function Unnormalized(ps: Priors, r: Answer, s: Skill, x: Level): real {
    ps.Get(s).Weight(x) * NuisanceSum(ps, r, s, x)
  }

  /** The query's normaliser: the sum of both unnormalised weights. */
  function Normaliser(ps: Priors, r: Answer, s: Skill): real {
    Unnormalized(ps, r, s, Low) + Unnormalized(ps, r, s, High)
  }

  // ---------------------------------------------------------------------
  // Reference definition: the full joint distribution of the network.

  /** P(Algebra = a, Geometry = g, Functions = f, Result = r). */
  function Joint(ps: Priors, r: Answer, a: Level, g: Level, f: Level): real {
    ps.algebra.Weight(a) * ps.geometry.Weight(g) * ps.functions.Weight(f) * Likelihood(r, a, g, f)
  }

  /** Joint mass of the cell that puts s at x and the two other skills at y and z. */
  function CellMass(ps: Priors, r: Answer, s: Skill, x: Level, y: Level, z: Level): real {
    var c := Cell(s, x, y, z);
    Joint(ps, r, c.algebra, c.geometry, c.functions)
  }

  /** P(s = x, Result = r), summed from the joint. */
  function JointMass(ps: Priors, r: Answer, s: Skill, x: Level): real {
    CellMass(ps, r, s, x, Low, Low) + CellMass(ps, r, s, x, Low, High)
    + CellMass(ps, r, s, x, High, Low) + CellMass(ps, r, s, x, High, High)
  }

  /** P(Result = r): the joint summed over all eight parent assignments. */
  function EvidenceProbability(ps: Priors, r: Answer): real {
    Joint(ps, r, Low, Low, Low) + Joint(ps, r, Low, Low, High)
    + Joint(ps, r, Low, High, Low) + Joint(ps, r, Low, High, High)
    + Joint(ps, r, High, Low, Low) + Joint(ps, r, High, Low, High)
    + Joint(ps, r, High, High, Low) + Joint(ps, r, High, High, High)
  }

  // ---------------------------------------------------------------------
  // Real-arithmetic steps over plain numbers, kept separate so that each
  // proof sees only a few non-linear terms.

  /** w * t == c, kept as one atom so that chained products stay apart. */
  predicate ProductIs(w: real, t: real, c: real)
  {
    w * t == c
  }

  /** Distributing a common factor over a sum of four terms with known products. */
  lemma Combine4(w: real, t0: real, t1: real, t2: real, t3: real, c0: real, c1: real, c2: real, c3: real,
                  t: real, c: real)
    requires ProductIs(w, t0, c0) && ProductIs(w, t1, c1) && ProductIs(w, t2, c2) && ProductIs(w, t3, c3)
    requires t == t0 + t1 + t2 + t3 && c == c0 + c1 + c2 + c3
    ensures ProductIs(w, t, c)
  {
  }

  /** Splitting a positive total n = a + b of non-negative parts into the shares a / n and b / n. */
  lemma Shares(a: real, b: real, n: real)
    requires 0.0 <= a && 0.0 <= b && n == a + b && n > 0.0
    ensures a / n + b / n == 1.0
    ensures a / n * n == a && b / n * n == b
    ensures 0.0 <= a / n && 0.0 <= b / n
  {
    assert a / n + b / n == (a + b) / n;
  }

  /** The sign of a product with a positive factor is the sign of the other factor. */
  lemma SignOfProduct(a: real, n: real)
    requires n > 0.0
    ensures a * n >= 0.0 ==> a >= 0.0
    ensures a * n <= 0.0 ==> a <= 0.0
    ensures a * n > 0.0 ==> a > 0.0
    ensures a * n < 0.0 ==> a < 0.0
  {
  }

  /** A weighted average of values that are all at least m is at least m. */
  lemma AverageAtLeast(w0: real, w1: real, w2: real, w3: real,
                       v0: real, v1: real, v2: real, v3: real, m: real, t: real)
    requires 0.0 <= w0 && 0.0 <= w1 && 0.0 <= w2 && 0.0 <= w3
    requires w0 + w1 + w2 + w3 == 1.0
    requires v0 >= m && v1 >= m && v2 >= m && v3 >= m
    requires t == w0 * v0 + w1 * v1 + w2 * v2 + w3 * v3
    ensures t >= m
  {
    MulMono(w0, m, v0);
    MulMono(w1, m, v1);
    MulMono(w2, m, v2);
    MulMono(w3, m, v3);
    assert w0 * m + w1 * m <= w0 * v0 + w1 * v1;
    assert w0 * m + w1 * m + w2 * m <= w0 * v0 + w1 * v1 + w2 * v2;
    assert w0 * m + w1 * m + w2 * m + w3 * m <= w0 * v0 + w1 * v1 + w2 * v2 + w3 * v3;
    assert w3 * m == m - w0 * m - w1 * m - w2 * m by {
      assert w3 == 1.0 - w0 - w1 - w2;
    }
  }

  /** Adding d to every value of a weighted average adds d to the average. */
  lemma AverageShift(w0: real, w1: real, w2: real, w3: real,
                     v0: real, v1: real, v2: real, v3: real, d: real)
    requires w0 + w1 + w2 + w3 == 1.0
    ensures w0 * (v0 + d) + w1 * (v1 + d) + w2 * (v2 + d) + w3 * (v3 + d)
      == w0 * v0 + w1 * v1 + w2 * v2 + w3 * v3 + d
  {
    assert w3 * d == d - w0 * d - w1 * d - w2 * d by {
      assert w3 == 1.0 - w0 - w1 - w2;
    }
  }

  /** The four weights of two independent two-state distributions add up to one. */
  lemma PairWeights(p: Prior, q: Prior)
    requires ValidPrior(p) && ValidPrior(q)
    ensures p.Weight(Low) * q.Weight(Low) + p.Weight(Low) * q.Weight(High)
      + p.Weight(High) * q.Weight(Low) + p.Weight(High) * q.Weight(High) == 1.0
    ensures 0.0 <= p.Weight(Low) * q.Weight(Low) && 0.0 <= p.Weight(Low) * q.Weight(High)
    ensures 0.0 <= p.Weight(High) * q.Weight(Low) && 0.0 <= p.Weight(High) * q.Weight(High)
  {
    assert p.low * q.low + p.low * q.high == p.low * (q.low + q.high);
    assert p.high * q.low + p.high * q.high == p.high * (q.low + q.high);
    MulNonneg(p.low, q.low);
    MulNonneg(p.low, q.high);
    MulNonneg(p.high, q.low);
    MulNonneg(p.high, q.high);
  }

  /** Bayes' rule for one binary variable, multiplied out: with n = l * eL + h * eH and
      qh * n = h * eH, the gap qh - h times n is h * l * (eH - eL). */
  lemma BayesGap(l: real, h: real, eL: real, eH: real, n: real, qh: real)
    requires l + h == 1.0 && n == l * eL + h * eH && qh * n == h * eH
    ensures (qh - h) * n == h * l * (eH - eL)
  {
    assert h * n == h * l * eL + h * h * eH;
    assert h * eH - h * h * eH == h * eH * (1.0 - h);
  }

  // ---------------------------------------------------------------------
  // The enumeration agrees with the joint distribution.

  /** Reordering the factors of a four-way product. */
  lemma Regroup(w: real, a: real, b: real, l: real)
    ensures w * (a * b * l) == w * a * b * l
    ensures w * (a * b * l) == a * w * b * l
    ensures w * (a * b * l) == a * b * w * l
  {
  }

  /** One term of the enumeration, times the query's prior weight, is the joint mass of its cell. */
  lemma CellTerm(ps: Priors, r: Answer, s: Skill, x: Level, y: Level, z: Level)
    ensures ProductIs(ps.Get(s).Weight(x), Term(ps, r, s, x, y, z), CellMass(ps, r, s, x, y, z))
  {
    var l := CellLikelihood(r, s, x, y, z);
    var A, G, F := ps.algebra, ps.geometry, ps.functions;
    match s
    case Algebra =>
      Regroup(A.Weight(x), G.Weight(y), F.Weight(z), l);
    case Geometry =>
      Regroup(G.Weight(x), A.Weight(y), F.Weight(z), l);
    case Functions =>
      Regroup(F.Weight(x), A.Weight(y), G.Weight(z), l);
  }

  /** Each unnormalised weight is the joint mass of its state. */
  lemma UnnormalizedIsJointMass(ps: Priors, r: Answer, s: Skill, x: Level)
    ensures Unnormalized(ps, r, s, x) == JointMass(ps, r, s, x)
  {
    CellTerm(ps, r, s, x, Low, Low);
    CellTerm(ps, r, s, x, Low, High);
    CellTerm(ps, r, s, x, High, Low);
    CellTerm(ps, r, s, x, High, High);
    Combine4(ps.Get(s).Weight(x), Term(ps, r, s, x, Low, Low), Term(ps, r, s, x, Low, High),
             Term(ps, r, s, x, High, Low), Term(ps, r, s, x, High, High),
             CellMass(ps, r, s, x, Low, Low), CellMass(ps, r, s, x, Low, High),
             CellMass(ps, r, s, x, High, Low), CellMass(ps, r, s, x, High, High),
             NuisanceSum(ps, r, s, x), JointMass(ps, r, s, x));
  }

  /** The three queries share one normaliser, the probability of the evidence. */
  lemma NormaliserIsEvidenceProbability(ps: Priors, r: Answer, s: Skill)
    ensures Normaliser(ps, r, s) == EvidenceProbability(ps, r)
  {
    UnnormalizedIsJointMass(ps, r, s, Low);
    UnnormalizedIsJointMass(ps, r, s, High);
  }

  /** Under valid priors the joint is a distribution: P(Correct) + P(Incorrect) = 1. */
  lemma EvidenceProbabilitiesSumToOne(ps: Priors)
    requires ValidPriors(ps)
    ensures EvidenceProbability(ps, Correct) + EvidenceProbability(ps, Incorrect) == 1.0
  {
    // Enumerate by Algebra: each half is P(Algebra = a) times a Geometry/Functions average.
    NormaliserIsEvidenceProbability(ps, Correct, Algebra);
    NormaliserIsEvidenceProbability(ps, Incorrect, Algebra);
    var A := ps.algebra;
    assert ValidPrior(ps.Get(Algebra)) && ValidPrior(ps.Get(Geometry)) && ValidPrior(ps.Get(Functions));
    forall x: Level
      ensures NuisanceSum(ps, Correct, Algebra, x) + NuisanceSum(ps, Incorrect, Algebra, x) == 1.0
    {
      TermsComplement(ps, Algebra, x);
    }
    assert Unnormalized(ps, Correct, Algebra, Low) + Unnormalized(ps, Incorrect, Algebra, Low) == A.low
    by {
      Distribute2(A.low, NuisanceSum(ps, Correct, Algebra, Low), NuisanceSum(ps, Incorrect, Algebra, Low));
    }
    assert Unnormalized(ps, Correct, Algebra, High) + Unnormalized(ps, Incorrect, Algebra, High) == A.high
    by {
      Distribute2(A.high, NuisanceSum(ps, Correct, Algebra, High), NuisanceSum(ps, Incorrect, Algebra, High));
    }
  }

  lemma Distribute2(w: real, a: real, b: real)
    requires a + b == 1.0
    ensures w * a + w * b == w
  {
    assert w * a + w * b == w * (a + b);
  }

  /** One cell's Correct and Incorrect terms add up to the cell's nuisance weight. */
  lemma TermComplement(ps: Priors, s: Skill, x: Level, y: Level, z: Level)
    ensures Term(ps, Correct, s, x, y, z) + Term(ps, Incorrect, s, x, y, z)
      == ps.Get(Others(s).0).Weight(y) * ps.Get(Others(s).1).Weight(z)
  {
    var w := ps.Get(Others(s).0).Weight(y) * ps.Get(Others(s).1).Weight(z);
    var c := Cell(s, x, y, z);
    ColumnsAreStochastic();
    assert Likelihood(Correct, c.algebra, c.geometry, c.functions)
      + Likelihood(Incorrect, c.algebra, c.geometry, c.functions) == 1.0;
    Distribute2(w, CellLikelihood(Correct, s, x, y, z), CellLikelihood(Incorrect, s, x, y, z));
  }

  /** For a fixed query state, the Correct and Incorrect nuisance sums add up to one. */
  lemma TermsComplement(ps: Priors, s: Skill, x: Level)
    requires ValidPriors(ps)
    ensures NuisanceSum(ps, Correct, s, x) + NuisanceSum(ps, Incorrect, s, x) == 1.0
  {
    var p := ps.Get(Others(s).0);
    var q := ps.Get(Others(s).1);
    assert ValidPrior(p) && ValidPrior(q);
    PairWeights(p, q);
    TermComplement(ps, s, x, Low, Low);
    TermComplement(ps, s, x, Low, High);
    TermComplement(ps, s, x, High, Low);
    TermComplement(ps, s, x, High, High);
  }

  // ---------------------------------------------------------------------
  // Bounds and the posterior itself.

  lemma CellLikelihoodAtLeastOneTenth(r: Answer, s: Skill, x: Level, y: Level, z: Level)
    ensures CellLikelihood(r, s, x, y, z) >= 0.1
  {
    var c := Cell(s, x, y, z);
    EntriesAtLeastOneTenth(r, c.algebra, c.geometry, c.functions);
  }

  /** The nuisance sum is a weighted average of table entries, so it is at least 0.1. */
  lemma NuisanceSumAtLeastOneTenth(ps: Priors, r: Answer, s: Skill, x: Level)
    requires ValidPriors(ps)
    ensures NuisanceSum(ps, r, s, x) >= 0.1
  {
    var p := ps.Get(Others(s).0);
    var q := ps.Get(Others(s).1);
    assert ValidPrior(p) && ValidPrior(q);
    NuisanceSumExpanded(ps, r, s, x);
    CellLikelihoodAtLeastOneTenth(r, s, x, Low, Low);
    CellLikelihoodAtLeastOneTenth(r, s, x, Low, High);
    CellLikelihoodAtLeastOneTenth(r, s, x, High, Low);
    CellLikelihoodAtLeastOneTenth(r, s, x, High, High);
    PairAverageAtLeast(p, q, CellLikelihood(r, s, x, Low, Low), CellLikelihood(r, s, x, Low, High),
                       CellLikelihood(r, s, x, High, Low), CellLikelihood(r, s, x, High, High), 0.1,
                       NuisanceSum(ps, r, s, x));
  }

  /** Averaging four values, each at least m, under the product of two priors gives at least m. */
  lemma PairAverageAtLeast(p: Prior, q: Prior, v0: real, v1: real, v2: real, v3: real, m: real, t: real)
    requires ValidPrior(p) && ValidPrior(q)
    requires v0 >= m && v1 >= m && v2 >= m && v3 >= m
    requires t == p.Weight(Low) * q.Weight(Low) * v0 + p.Weight(Low) * q.Weight(High) * v1
                + p.Weight(High) * q.Weight(Low) * v2 + p.Weight(High) * q.Weight(High) * v3
    ensures t >= m
  {
    PairWeights(p, q);
    AverageAtLeast(p.Weight(Low) * q.Weight(Low), p.Weight(Low) * q.Weight(High),
                   p.Weight(High) * q.Weight(Low), p.Weight(High) * q.Weight(High), v0, v1, v2, v3, m, t);
  }

  /** The nuisance sum written out over the two other skills' priors. */
  lemma NuisanceSumExpanded(ps: Priors, r: Answer, s: Skill, x: Level)
    ensures var p, q := ps.Get(Others(s).0), ps.Get(Others(s).1);
      NuisanceSum(ps, r, s, x)
      == p.Weight(Low) * q.Weight(Low) * CellLikelihood(r, s, x, Low, Low)
       + p.Weight(Low) * q.Weight(High) * CellLikelihood(r, s, x, Low, High)
       + p.Weight(High) * q.Weight(Low) * CellLikelihood(r, s, x, High, Low)
       + p.Weight(High) * q.Weight(High) * CellLikelihood(r, s, x, High, High)
  {
  }

  /** Each unnormalised weight is at least 0.1 times the prior weight, hence non-negative. */
  lemma UnnormalizedAtLeast(ps: Priors, r: Answer, s: Skill, x: Level)
    requires ValidPriors(ps)
    ensures Unnormalized(ps, r, s, x) >= ps.Get(s).Weight(x) * 0.1
    ensures Unnormalized(ps, r, s, x) >= 0.0
  {
    assert ValidPrior(ps.Get(s));
    NuisanceSumAtLeastOneTenth(ps, r, s, x);
    ScaledAtLeast(ps.Get(s).Weight(x), NuisanceSum(ps, r, s, x), 0.1, Unnormalized(ps, r, s, x));
  }

  /** A non-negative weight times a value of at least m >= 0 is at least the weight times m. */
  lemma ScaledAtLeast(w: real, e: real, m: real, u: real)
    requires 0.0 <= w && 0.0 <= m && m <= e && u == w * e
    ensures u >= w * m && u >= 0.0
  {
    MulMono(w, m, e);
    MulNonneg(w, m);
  }

  /** The normaliser of every query is at least 0.1, so it is never zero. */
  lemma NormaliserAtLeastOneTenth(ps: Priors, r: Answer, s: Skill)
    requires ValidPriors(ps)
    ensures Normaliser(ps, r, s) >= 0.1
  {
    assert ValidPrior(ps.Get(s));
    UnnormalizedAtLeast(ps, r, s, Low);
    UnnormalizedAtLeast(ps, r, s, High);
  }

  /** Posterior of skill s given Result = r: both unnormalised weights divided by the
      query's normaliser. */
  function Posterior(ps: Priors, r: Answer, s: Skill): (q: Prior)
    requires ValidPriors(ps)
    ensures ValidPrior(q)
  {
    var lo := Unnormalized(ps, r, s, Low);
    var hi := Unnormalized(ps, r, s, High);
    var n := Normaliser(ps, r, s);
    UnnormalizedAtLeast(ps, r, s, Low);
    UnnormalizedAtLeast(ps, r, s, High);
    NormaliserAtLeastOneTenth(ps, r, s);
    Shares(lo, hi, n);
    Prior(lo / n, hi / n)
  }

  /** Bayes' rule against the reference joint: P(s = x | Result = r) * P(Result = r)
      is the joint mass P(s = x, Result = r). */
  lemma PosteriorIsBayes(ps: Priors, r: Answer, s: Skill, x: Level)
    requires ValidPriors(ps)
    ensures BayesRule(Posterior(ps, r, s).Weight(x), EvidenceProbability(ps, r), JointMass(ps, r, s, x))
  {
    PosteriorFacts(ps, r, s, x);
    ScaleBackTo(Posterior(ps, r, s).Weight(x), Unnormalized(ps, r, s, x), Normaliser(ps, r, s),
                EvidenceProbability(ps, r), JointMass(ps, r, s, x));
  }

  /** The posterior weight as a share of the normaliser, and the normaliser and the
      unnormalised weight in terms of the joint. */
  lemma PosteriorFacts(ps: Priors, r: Answer, s: Skill, x: Level)
    requires ValidPriors(ps)
    ensures ShareOf(Posterior(ps, r, s).Weight(x), Unnormalized(ps, r, s, x), Normaliser(ps, r, s),
                    EvidenceProbability(ps, r), JointMass(ps, r, s, x))
  {
    NormaliserIsEvidenceProbability(ps, r, s);
    UnnormalizedIsJointMass(ps, r, s, x);
    PosteriorWeight(ps, r, s, x);
  }

  /** Each posterior weight is its unnormalised weight over the normaliser. */
  lemma PosteriorWeight(ps: Priors, r: Answer, s: Skill, x: Level)
    requires ValidPriors(ps)
    ensures Normaliser(ps, r, s) > 0.0
    ensures Posterior(ps, r, s).Weight(x) == Unnormalized(ps, r, s, x) / Normaliser(ps, r, s)
  {
    NormaliserAtLeastOneTenth(ps, r, s);
  }

  /** u / n * e == u when n == e is positive. */
  lemma ScaleBack(u: real, n: real, e: real)
    requires n > 0.0 && n == e
    ensures u / n * e == u
  {
  }

  /** w is the share u / n of a positive normaliser n, where n equals e and u equals j. */
  predicate ShareOf(w: real, u: real, n: real, e: real, j: real)
  {
    n > 0.0 && n == e && w == u / n && u == j
  }

  /** Bayes' rule for one outcome: the conditional w times the evidence e is the joint j. */
  predicate BayesRule(w: real, e: real, j: real)
  {
    w * e == j
  }

  lemma ScaleBackTo(w: real, u: real, n: real, e: real, j: real)
    requires ShareOf(w, u, n, e, j)
    ensures BayesRule(w, e, j)
  {
    ScaleBack(u, n, e);
  }

  /** The posterior over every skill shares P(Result = r) as normaliser, so the three
      posteriors are the marginals of one conditional joint distribution. */
  lemma PosteriorsShareEvidence(ps: Priors, r: Answer, s: Skill, t: Skill)
    ensures Normaliser(ps, r, s) == Normaliser(ps, r, t)
  {
    NormaliserIsEvidenceProbability(ps, r, s);
    NormaliserIsEvidenceProbability(ps, r, t);
  }

  // ---------------------------------------------------------------------
  // Direction of the update.

  /** With valid nuisance priors, raising s from Low to High shifts the nuisance sum by
      exactly Shift(s): upwards for Correct, downwards for Incorrect. */
  lemma NuisanceSumShift(ps: Priors, s: Skill)
    requires ValidPriors(ps)
    ensures NuisanceSum(ps, Correct, s, High) == NuisanceSum(ps, Correct, s, Low) + Shift(s)
    ensures NuisanceSum(ps, Incorrect, s, Low) == NuisanceSum(ps, Incorrect, s, High) + Shift(s)
  {
    var p := ps.Get(Others(s).0);
    var q := ps.Get(Others(s).1);
    assert ValidPrior(p) && ValidPrior(q);
    PairWeights(p, q);
    RaisingOneParent(s, Low, Low);
    RaisingOneParent(s, Low, High);
    RaisingOneParent(s, High, Low);
    RaisingOneParent(s, High, High);
    AverageShift(p.Weight(Low) * q.Weight(Low), p.Weight(Low) * q.Weight(High),
                 p.Weight(High) * q.Weight(Low), p.Weight(High) * q.Weight(High),
                 CellLikelihood(Correct, s, Low, Low, Low), CellLikelihood(Correct, s, Low, Low, High),
                 CellLikelihood(Correct, s, Low, High, Low), CellLikelihood(Correct, s, Low, High, High), Shift(s));
    AverageShift(p.Weight(Low) * q.Weight(Low), p.Weight(Low) * q.Weight(High),
                 p.Weight(High) * q.Weight(Low), p.Weight(High) * q.Weight(High),
                 CellLikelihood(Incorrect, s, High, Low, Low), CellLikelihood(Incorrect, s, High, Low, High),
                 CellLikelihood(Incorrect, s, High, High, Low), CellLikelihood(Incorrect, s, High, High, High), Shift(s));
  }

  /** Posterior High exceeds prior High exactly by h * l * (E_High - E_Low) / N. */
  lemma PosteriorHighVersusPrior(ps: Priors, r: Answer, s: Skill)
    requires ValidPriors(ps)
    ensures var P := ps.Get(s);
      (Posterior(ps, r, s).high - P.high) * Normaliser(ps, r, s)
        == P.high * P.low * (NuisanceSum(ps, r, s, High) - NuisanceSum(ps, r, s, Low))
  {
    var P := ps.Get(s);
    assert ValidPrior(P);
    var n := Normaliser(ps, r, s);
    var hi := Unnormalized(ps, r, s, High);
    var eL := NuisanceSum(ps, r, s, Low);
    var eH := NuisanceSum(ps, r, s, High);
    NormaliserAtLeastOneTenth(ps, r, s);
    assert Posterior(ps, r, s).high == hi / n;
    ScaleBack(hi, n, n);
    assert hi == P.high * eH;
    assert n == P.low * eL + P.high * eH;
    BayesGap(P.low, P.high, eL, eH, n, Posterior(ps, r, s).high);
  }

  /** The sign of the posterior gap follows the sign of the nuisance-sum difference. */
  lemma GapSign(gap: real, n: real, h: real, l: real, diff: real)
    requires n > 0.0 && 0.0 <= h && 0.0 <= l && gap * n == h * l * diff
    ensures diff >= 0.0 ==> gap >= 0.0
    ensures diff <= 0.0 ==> gap <= 0.0
    ensures h > 0.0 && l > 0.0 && diff > 0.0 ==> gap > 0.0
    ensures h > 0.0 && l > 0.0 && diff < 0.0 ==> gap < 0.0
  {
    MulNonneg(h, l);
    if diff >= 0.0 {
      MulNonneg(h * l, diff);
    } else {
      MulNonneg(h * l, -diff);
    }
    if h > 0.0 && l > 0.0 && diff != 0.0 {
      MulPos(h, l);
      if diff > 0.0 {
        MulPos(h * l, diff);
      } else {
        MulPos(h * l, -diff);
      }
    }
    SignOfProduct(gap, n);
  }

  /** Evidence Correct never lowers, and Incorrect never raises, a skill's High probability
      relative to the prior it was computed from; strictly so when that prior is not
      degenerate. */
  lemma EvidenceDirection(ps: Priors, r: Answer, s: Skill)
    requires ValidPriors(ps)
    ensures r == Correct ==> Posterior(ps, r, s).high >= ps.Get(s).high
    ensures r == Incorrect ==> Posterior(ps, r, s).high <= ps.Get(s).high
    ensures 0.0 < ps.Get(s).high < 1.0 && r == Correct ==> Posterior(ps, r, s).high > ps.Get(s).high
    ensures 0.0 < ps.Get(s).high < 1.0 && r == Incorrect ==> Posterior(ps, r, s).high < ps.Get(s).high
  {
    var P := ps.Get(s);
    assert ValidPrior(P);
    NuisanceSumShift(ps, s);
    PosteriorHighVersusPrior(ps, r, s);
    NormaliserAtLeastOneTenth(ps, r, s);
    GapSign(Posterior(ps, r, s).high - P.high, Normaliser(ps, r, s), P.high, P.low,
            NuisanceSum(ps, r, s, High) - NuisanceSum(ps, r, s, Low));
  }
}

=== FILE: learner.dfy ===
/**
 * The learner session: the network, the skill priors kept apart from it, and
 * the belief state; building the default network, updating after an answer,
 * predicting success, and saving to / loading from the model store.
 */
module Learner {
  import opened Wrappers
  import opened RealArith
  import opened Skills
  import opened OutcomeTable
  import opened Heuristic
  import opened Inference
  import opened Network
  import opened Beliefs
  import opened Codec

  /** The network (None until it is built or loaded), the per-skill priors, the beliefs. */
  datatype Session = Session(network: Option<Net>, skillCpds: Priors, belief: BeliefState)

  /** A new session: no network, the default priors, an empty belief state. */
  const Fresh: Session := Session(None, DefaultPriors, map[])

  /** The network is the checked fork and the kept priors are distributions: every
      session that has been built, or updated after that, is in this state. */
  predicate Ready(s: Session) {
    s.network.Some? && IsFork(s.network.value) && ValidNetwork(s.network.value) && ValidPriors(s.skillCpds)
  }

  /**
   * Building the network: the fork with the DEFAULT priors (not the kept ones,
   * which stay as they are) and the beliefs read off it.
   */
  function BuildNetwork(s: Session): (r: Session)
    ensures r.network == Some(DefaultNetwork) && r.skillCpds == s.skillCpds
    ensures r.belief == BeliefOf(DefaultPriors)
  {
    PriorDistributionOfNetwork(DefaultPriors);
    Session(Some(DefaultNetwork), s.skillCpds, PriorDistribution(DefaultNetwork))
  }

  /** A built session is ready whenever the kept priors are distributions. */
  lemma BuildNetworkReady(s: Session)
    requires ValidPriors(s.skillCpds)
    ensures Ready(BuildNetwork(s))
  {
    NetworkOfIsValid(DefaultPriors);
  }

  function AnswerOf(isCorrect: bool): Answer {
    if isCorrect then Correct else Incorrect
  }

  /**
   * After an answer: the kept prior of the answered skill is moved by the
   * heuristic, the four tables are rebuilt from the kept priors, and each
   * skill's belief becomes its posterior given the observed Result; any
   * other belief entry is kept.
   */
  function UpdateFromAnswer(s: Session, isCorrect: bool, topic: string): (r: Session)
    requires Ready(s)
    ensures Ready(r)
    ensures r.skillCpds == UpdateSkills(s.skillCpds, topic, isCorrect)
    ensures r.network.value.cpds == NetworkOf(r.skillCpds).cpds
    ensures r.network.value.nodes == s.network.value.nodes && r.network.value.edges == s.network.value.edges
    ensures forall sk: Skill ::
      (sk.Name() in r.belief && r.belief[sk.Name()] == Dist(Posterior(r.skillCpds, AnswerOf(isCorrect), sk)))
    ensures forall k :: k in s.belief && k !in SkillNames ==> k in r.belief && r.belief[k] == s.belief[k]
  {
    var ps := UpdateSkills(s.skillCpds, topic, isCorrect);
    var net := s.network.value;
    RebuildFork(net, ps);
    var b := WithSkillBeliefs(s.belief, Posteriors(ps, AnswerOf(isCorrect)));
    Session(Some(Rebuild(net, ps)), ps, b)
  }

  /** The three skills' posteriors given the answer. */
  function Posteriors(ps: Priors, e: Answer): (q: Priors)
    requires ValidPriors(ps)
    ensures forall sk: Skill :: q.Get(sk) == Posterior(ps, e, sk)
  {
    Priors(Posterior(ps, e, Algebra), Posterior(ps, e, Geometry), Posterior(ps, e, Functions))
  }

  /** The belief state with each skill's entry set to the distribution of the given prior. */
  function WithSkillBeliefs(b: BeliefState, q: Priors): (r: BeliefState)
    ensures forall sk: Skill :: sk.Name() in r && r[sk.Name()] == Dist(q.Get(sk))
    ensures forall k :: k in b && k !in SkillNames ==> k in r && r[k] == b[k]
  {
    b["Algebra" := Dist(q.algebra)]["Geometry" := Dist(q.geometry)]["Functions" := Dist(q.functions)]
  }

  /** Answers in order, each as (correct?, topic). */
  function ApplyAnswers(s: Session, answers: seq<(bool, string)>): (r: Session)
    requires Ready(s)
    ensures Ready(r)
    decreases |answers|
  {
    if |answers| == 0 then s
    else ApplyAnswers(UpdateFromAnswer(s, answers[0].0, answers[0].1), answers[1..])
  }

  /** Low at least 0.05 and High at most 0.95. */
  predicate InBand(p: Prior) {
    p.low >= LowFloor && p.high <= HighCeiling
  }

  predicate AllInBand(ps: Priors) {
    forall sk: Skill :: InBand(ps.Get(sk))
  }

  /** One answer keeps every kept prior in the band if all were in it. */
  lemma UpdateSkillsKeepsBand(ps: Priors, topic: string, isCorrect: bool)
    requires ValidPriors(ps) && AllInBand(ps)
    ensures AllInBand(UpdateSkills(ps, topic, isCorrect))
  {
    var r := UpdateSkills(ps, topic, isCorrect);
    forall sk: Skill ensures InBand(r.Get(sk)) {
      if sk != SkillOfTopic(topic) {
        assert r.Get(sk) == ps.Get(sk);
      }
    }
  }

  /** Once every kept prior is in the band, no sequence of answers takes one out. */
  lemma {:induction false} AnswersKeepBand(s: Session, answers: seq<(bool, string)>)
    requires Ready(s) && AllInBand(s.skillCpds)
    ensures AllInBand(ApplyAnswers(s, answers).skillCpds)
    decreases |answers|
  {
    if |answers| > 0 {
      var next := UpdateFromAnswer(s, answers[0].0, answers[0].1);
      UpdateSkillsKeepsBand(s.skillCpds, answers[0].1, answers[0].0);
      AnswersKeepBand(next, answers[1..]);
    }
  }

  /** The default priors are in the band. */
  lemma DefaultPriorsInBand()
    ensures ValidPriors(DefaultPriors) && AllInBand(DefaultPriors)
  {
    DefaultPriorsValid();
    forall sk: Skill ensures InBand(DefaultPriors.Get(sk)) {
    }
  }

  /** From a freshly built session the kept priors stay in the band whatever the answers. */
  lemma FreshSessionStaysInBand(answers: seq<(bool, string)>)
    ensures Ready(BuildNetwork(Fresh))
    ensures AllInBand(ApplyAnswers(BuildNetwork(Fresh), answers).skillCpds)
  {
    DefaultPriorsInBand();
    var s := BuildNetwork(Fresh);
    BuildNetworkReady(Fresh);
    assert s.skillCpds == DefaultPriors;
    AnswersKeepBand(s, answers);
  }

  /** State name of a level in the belief state. */
  function LevelName(x: Level): (n: string)
    ensures n == LevelNames[x.Index()]
  {
    if x == High then "High" else "Low"
  }

  lemma DistWeight(p: Prior, x: Level)
    ensures LevelName(x) in Dist(p) && Dist(p)[LevelName(x)] == p.Weight(x)
  {
  }

  /** Each belief after an answer is Bayes' rule on the rebuilt network: its weight
      for a level times the probability of the answer is the joint mass of that level. */
  lemma UpdateIsBayes(s: Session, isCorrect: bool, topic: string, sk: Skill, x: Level)
    requires Ready(s)
    ensures var r := UpdateFromAnswer(s, isCorrect, topic);
      LevelName(x) in r.belief[sk.Name()]
      && BayesRule(r.belief[sk.Name()][LevelName(x)],
                   EvidenceProbability(r.skillCpds, AnswerOf(isCorrect)),
                   JointMass(r.skillCpds, AnswerOf(isCorrect), sk, x))
  {
    var r := UpdateFromAnswer(s, isCorrect, topic);
    var q := Posterior(r.skillCpds, AnswerOf(isCorrect), sk);
    DistWeight(q, x);
    PosteriorIsBayes(r.skillCpds, AnswerOf(isCorrect), sk, x);
  }

  /** After a correct answer every skill's High belief is at least its kept prior's
      High, after an incorrect one at most; strictly so when that prior is not 0 or 1. */
  lemma UpdateFollowsEvidence(s: Session, isCorrect: bool, topic: string, sk: Skill)
    requires Ready(s)
    ensures var r := UpdateFromAnswer(s, isCorrect, topic);
      var h := r.skillCpds.Get(sk).high;
      (isCorrect ==> r.belief[sk.Name()]["High"] >= h)
      && (!isCorrect ==> r.belief[sk.Name()]["High"] <= h)
      && (0.0 < h < 1.0 && isCorrect ==> r.belief[sk.Name()]["High"] > h)
      && (0.0 < h < 1.0 && !isCorrect ==> r.belief[sk.Name()]["High"] < h)
  {
    var r := UpdateFromAnswer(s, isCorrect, topic);
    EvidenceDirection(r.skillCpds, AnswerOf(isCorrect), sk);
  }

  /** A first correct algebra answer moves the default Algebra prior to 150/319, 169/319,
      and the Algebra posterior High ends above 169/319. */
  lemma FirstCorrectAlgebraPriors()
    ensures ValidPriors(UpdateSkills(DefaultPriors, "algebra", true))
    ensures var ps := UpdateSkills(DefaultPriors, "algebra", true);
      ps.algebra.high * 319.0 == 169.0 && Posterior(ps, Correct, Algebra).high * 319.0 > 169.0
  {
    DefaultPriorsValid();
    LowerOfTopicName(Algebra);
    var ps := UpdateSkills(DefaultPriors, "algebra", true);
    DefaultAlgebraAfterCorrect();
    assert ps.algebra == UpdatePrior(Prior(0.6, 0.4), true);
    CorrectRaisesScaled(ps, Algebra, 319.0);
  }

  /** A correct answer strictly raises High for a prior strictly between 0 and 1,
      stated on a scale c so that exact rationals need no division. */
  lemma CorrectRaisesScaled(ps: Priors, s: Skill, c: real)
    requires ValidPriors(ps) && 0.0 < ps.Get(s).high < 1.0 && c > 0.0
    ensures Posterior(ps, Correct, s).high * c > ps.Get(s).high * c
  {
    EvidenceDirection(ps, Correct, s);
    MulMonoStrict(ps.Get(s).high, Posterior(ps, Correct, s).high, c);
  }

  /** The same from a freshly built session: the belief and the kept prior after one
      correct algebra answer. */
  lemma FirstCorrectAlgebra()
    ensures Ready(BuildNetwork(Fresh))
    ensures var r := UpdateFromAnswer(BuildNetwork(Fresh), true, "algebra");
      r.skillCpds.algebra.high * 319.0 == 169.0 && r.belief["Algebra"]["High"] * 319.0 > 169.0
  {
    DefaultPriorsValid();
    BuildNetworkReady(Fresh);
    FirstCorrectAlgebraPriors();
    var r := UpdateFromAnswer(BuildNetwork(Fresh), true, "algebra");
    assert r.belief[Algebra.Name()] == Dist(Posterior(r.skillCpds, Correct, Algebra));
  }

  /**
   * The success estimate for a topic; an empty belief state is first refilled
   * from the network, which must then exist.
   */
  function PredictSuccess(s: Session, topic: string): (out: (Session, real))
    requires |s.belief| > 0 || s.network.Some?
    ensures |s.belief| > 0 ==> out.0 == s
    ensures |s.belief| == 0 ==> out.0 == s.(belief := PriorDistribution(s.network.value))
    ensures out.1 == SuccessEstimate(out.0.belief, topic)
    ensures 0.0 <= HighOf(out.0.belief, NodeOfKey(topic).Name()) <= 1.0 ==> 0.3 <= out.1 <= 0.8
  {
    var s' := if |s.belief| > 0 then s else s.(belief := PriorDistribution(s.network.value));
    (s', SuccessEstimate(s'.belief, topic))
  }

  /** With an empty belief state on a network built from some priors, the estimate
      comes from those priors. */
  lemma PredictAfterRefill(s: Session, topic: string, ps: Priors)
    requires |s.belief| == 0 && s.network == Some(NetworkOf(ps))
    ensures PredictSuccess(s, topic).1 == 0.3 + 0.5 * ps.Get(NodeOfKey(topic)).high
  {
    var sk := NodeOfKey(topic);
    PriorDistributionOfNetwork(ps);
    var b := BeliefOf(ps);
    assert b[sk.Name()] == Dist(ps.Get(sk));
  }

  /** After any answer the estimate for any topic is 0.3 + 0.5 * the posterior High of its
      node, within [0.3, 0.8]. */
  lemma PredictAfterUpdate(s: Session, isCorrect: bool, topic: string, query: string)
    requires Ready(s)
    ensures var r := UpdateFromAnswer(s, isCorrect, topic);
      var p := PredictSuccess(r, query).1;
      p == 0.3 + 0.5 * Posterior(r.skillCpds, AnswerOf(isCorrect), NodeOfKey(query)).high
      && 0.3 <= p <= 0.8
  {
    var r := UpdateFromAnswer(s, isCorrect, topic);
    var sk := NodeOfKey(query);
    assert sk.Name() in r.belief;
    assert HighOf(r.belief, sk.Name()) == Posterior(r.skillCpds, AnswerOf(isCorrect), sk).high;
  }

  /** On the default priors: 0.5 for algebra, 0.55 for geometry, 0.45 for functions,
      and the Algebra estimate for a topic that is not an exact lower-case name. */
  lemma PredictOnDefaults()
    ensures SuccessEstimate(BeliefOf(DefaultPriors), "algebra") == 0.5
    ensures SuccessEstimate(BeliefOf(DefaultPriors), "geometry") == 0.55
    ensures SuccessEstimate(BeliefOf(DefaultPriors), "functions") == 0.45
    ensures SuccessEstimate(BeliefOf(DefaultPriors), "Geometry") == 0.5
  {
    var b := BeliefOf(DefaultPriors);
    assert b[Algebra.Name()] == Dist(Prior(0.6, 0.4));
    assert b[Geometry.Name()] == Dist(Prior(0.5, 0.5));
    assert b[Functions.Name()] == Dist(Prior(0.7, 0.3));
  }

  /** A freshly built session predicts from the default priors. */
  lemma PredictOnFreshBuild(topic: string)
    ensures PredictSuccess(BuildNetwork(Fresh), topic).1 == SuccessEstimate(BeliefOf(DefaultPriors), topic)
  {
    var b := BuildNetwork(Fresh).belief;
    assert Algebra.Name() in b;
  }

  // ---------------------------------------------------------------------
  // The model store.

  /** A stored model: structure and tables (either may be missing in a record
      written elsewhere) and the belief state (empty when missing). */
  datatype Record = Record(structure: Option<Structure>, cpts: Option<map<string, CptParams>>,
                           belief: BeliefState)

  /** The store: at most one record per user id. */
  type Store = map<string, Record>

  /** Networks whose tables can be written out: the ones the graph library holds. */
  predicate Storable(s: Session) {
    s.network.Some? ==> TablesInModel(s.network.value)
  }

  /**
   * Saving: nothing without a network; for a user with a record only the
   * belief state is replaced; otherwise a record with the structure, the
   * tables written by the given encoder, and the beliefs is created.
   */
  function SaveWith(e: Encoding, store: Store, user: string, s: Session): (r: Store)
    requires Storable(s)
    ensures s.network.None? ==> r == store
    ensures r.Keys == if s.network.Some? then store.Keys + {user} else store.Keys
    ensures forall u :: u in store && u != user ==> r[u] == store[u]
    ensures s.network.Some? && user in store ==>
      r[user].structure == store[user].structure && r[user].cpts == store[user].cpts
    ensures s.network.Some? ==> r[user].belief == s.belief
    ensures s.network.Some? && user !in store ==>
      r[user] == Record(Some(StructureOf(s.network.value)), Some(Serialize(e, s.network.value)), s.belief)
  {
    match s.network
    case None => store
    case Some(net) =>
      if user in store then
        store[user := store[user].(belief := s.belief)]
      else
        store[user := Record(Some(StructureOf(net)), Some(Serialize(e, net)), s.belief)]
  }

  /** Saving with the corrected encoder. */
  function Save(store: Store, user: string, s: Session): Store
    requires Storable(s)
  {
    SaveWith(Corrected, store, user, s)
  }

  /** Saving with the encoder as written. */
  function SaveAsWritten(store: Store, user: string, s: Session): Store
    requires Storable(s)
  {
    SaveWith(AsWritten, store, user, s)
  }

  /**
   * Loading: an unknown user changes nothing and reports false; a record
   * without structure or tables builds the default network and reports true;
   * a record whose tables do not decode or check builds the default network
   * and reports false; otherwise the stored network is installed with the
   * stored beliefs (read off the network when those are empty). The kept
   * priors are never touched.
   */
  function Load(store: Store, user: string, s: Session): (out: (Session, bool))
    ensures user !in store ==> out == (s, false)
    ensures user in store && (store[user].structure.None? || store[user].cpts.None?) ==>
      out == (BuildNetwork(s), true)
    ensures user in store && store[user].structure.Some? && store[user].cpts.Some? ==>
      (out.1 <==> LoadNetwork(store[user].structure.value, store[user].cpts.value).Success?)
    ensures user in store && !out.1 ==> out.0 == BuildNetwork(s)
    ensures user in store ==> out.0.network.Some?
    ensures out.0.skillCpds == s.skillCpds
  {
    if user !in store then
      (s, false)
    else
      var rec := store[user];
      // The stored beliefs are installed first, but building the network replaces them.
      if rec.structure.None? || rec.cpts.None? then
        (BuildNetwork(s), true)
      else
        match LoadNetwork(rec.structure.value, rec.cpts.value)
        case Failure(_) => (BuildNetwork(s), false)
        case Success(net) =>
          (Session(Some(net), s.skillCpds, if |rec.belief| == 0 then PriorDistribution(net) else rec.belief), true)
  }

  /** Whatever a found record holds, the session ends with a network that passes the model check. */
  lemma LoadedNetworkIsValid(store: Store, user: string, s: Session)
    requires user in store
    ensures Load(store, user, s).0.network.Some? && ValidNetwork(Load(store, user, s).0.network.value)
  {
    NetworkOfIsValid(DefaultPriors);
  }

  /**
   * Saving a built or updated session for a new user and loading it into any
   * session installs the same network and the same beliefs (or, if they were
   * empty, those read off the network), and reports success.
   */
  lemma SaveLoadRoundTrip(store: Store, user: string, s: Session, into: Session, ps: Priors)
    requires s.network.Some? && ValidNetwork(s.network.value) && s.network.value.cpds == StandardCpds(ps)
    requires user !in store
    ensures Storable(s)
    ensures Load(Save(store, user, s), user, into)
      == (Session(s.network, into.skillCpds, if |s.belief| == 0 then PriorDistribution(s.network.value) else s.belief), true)
  {
    SavedRecord(store, user, s, ps);
    LoadFound(Save(store, user, s), user, into, s.network.value);
  }

  /** The record saved for a new user loads back as the session's network. */
  lemma SavedRecord(store: Store, user: string, s: Session, ps: Priors)
    requires s.network.Some? && ValidNetwork(s.network.value) && s.network.value.cpds == StandardCpds(ps)
    requires user !in store
    ensures Storable(s)
    ensures var rec := Save(store, user, s)[user];
      rec.structure.Some? && rec.cpts.Some? && rec.belief == s.belief
      && LoadNetwork(rec.structure.value, rec.cpts.value) == Success(s.network.value)
  {
    var net := s.network.value;
    var rec := Save(store, user, s)[user];
    assert rec == Record(Some(StructureOf(net)), Some(Serialize(Corrected, net)), s.belief);
    StandardCpdsConsistent(ps);
    LoadSerialized(net);
  }

  /**
   * With the encoder as written, saving a built or updated session for a new
   * user and loading it back fails: the default network is built, the beliefs
   * are reset to the default priors' and false is reported.
   */
  lemma AsWrittenSaveLoadFallsBack(store: Store, user: string, s: Session, into: Session, ps: Priors)
    requires Ready(s) && s.network.value.cpds == StandardCpds(ps) && user !in store
    ensures Storable(s)
    ensures var out := Load(SaveAsWritten(store, user, s), user, into);
      !out.1 && out.0.network == Some(DefaultNetwork) && out.0.belief == BeliefOf(DefaultPriors)
  {
    AsWrittenRecordRejected(store, user, s, ps);
  }

  /** The record the encoder as written creates for a new user holds a structure and
      tables, and the tables are rejected. */
  lemma AsWrittenRecordRejected(store: Store, user: string, s: Session, ps: Priors)
    requires s.network.Some? && TablesInModel(s.network.value) && s.network.value.cpds == StandardCpds(ps) && user !in store
    ensures Storable(s)
    ensures var rec := SaveAsWritten(store, user, s)[user];
      rec.structure.Some? && rec.cpts.Some? && LoadNetwork(rec.structure.value, rec.cpts.value).Failure?
  {
    var net := s.network.value;
    var rec := SaveAsWritten(store, user, s)[user];
    assert rec == Record(Some(StructureOf(net)), Some(Serialize(AsWritten, net)), s.belief);
    AsWrittenTablesRejected(net, ps, StructureOf(net));
  }

  /**
   * A second save for the same user keeps the tables of the first: after an
   * answer, saving and loading brings back the network as it was first saved,
   * with the new beliefs.
   */
  lemma SecondSaveKeepsFirstTables(store: Store, user: string, s: Session, isCorrect: bool, topic: string,
                                   into: Session, ps: Priors)
    requires Ready(s) && s.network.value.cpds == StandardCpds(ps) && user !in store
    ensures Storable(s) && Storable(UpdateFromAnswer(s, isCorrect, topic))
    ensures var s2 := UpdateFromAnswer(s, isCorrect, topic);
      Load(Save(Save(store, user, s), user, s2), user, into) == (Session(s.network, into.skillCpds, s2.belief), true)
  {
    var s2 := UpdateFromAnswer(s, isCorrect, topic);
    assert Algebra.Name() in s2.belief;
    SaveTwice(store, user, s, s2, ps);
    LoadFound(Save(Save(store, user, s), user, s2), user, into, s.network.value);
  }

  /** A found record whose network loads installs it with the stored beliefs (or, if
      those are empty, the ones read off it), keeping the session's priors. */
  lemma LoadFound(store: Store, user: string, into: Session, net: Net)
    requires user in store && store[user].structure.Some? && store[user].cpts.Some?
    requires LoadNetwork(store[user].structure.value, store[user].cpts.value) == Success(net)
    ensures var b := store[user].belief;
      Load(store, user, into) == (Session(Some(net), into.skillCpds, if |b| == 0 then PriorDistribution(net) else b), true)
  {
  }

  /** Saving again for the same user replaces only the stored beliefs. */
  lemma SaveTwice(store: Store, user: string, s: Session, s2: Session, ps: Priors)
    requires s.network.Some? && ValidNetwork(s.network.value) && s.network.value.cpds == StandardCpds(ps)
    requires Storable(s2) && s2.network.Some? && user !in store
    ensures Storable(s)
    ensures var rec := Save(Save(store, user, s), user, s2)[user];
      rec.structure.Some? && rec.cpts.Some? && rec.belief == s2.belief
      && LoadNetwork(rec.structure.value, rec.cpts.value) == Success(s.network.value)
  {
    SavedRecord(store, user, s, ps);
  }
}

=== FILE: network.dfy ===
/**
 * The network as a graph of named nodes with one conditional table per node,
 * the way the session builds it (three skill roots, one Result child), and
 * the structural checks the graph library applies when tables are added and
 * when the model is checked.
 */
module Network {
  import opened Skills
  import opened OutcomeTable
  import opened Tensors

  /**
   * One conditional table: the variable, its cardinality, the values with
   * shape (card, card of each evidence variable...), the evidence variables
   * with their cardinalities, and the state names by variable.
   */
  datatype Cpd = Cpd(variable: string, card: nat, values: Tensor, evidence: seq<string>,
                     evidenceCard: seq<nat>, stateNames: map<string, seq<string>>)
  {
    /** The table's own variable followed by its evidence. */
    function Scope(): seq<string> {
      [variable] + evidence
    }

    /** The values hold card * (product of the evidence cards) numbers in a matching shape. */
    predicate WellFormed() {
      WellShaped(values) && values.shape == [card] + evidenceCard && |evidenceCard| == |evidence|
    }
  }

  datatype Edge = Edge(parent: string, child: string)

  /** Nodes and edges as they were added, and the tables by variable name. */
  datatype Net = Net(nodes: seq<string>, edges: seq<Edge>, cpds: map<string, Cpd>)

  /** Adding an edge adds its end points as nodes. */
  function NodeSet(net: Net): set<string> {
    (set n | n in net.nodes) + (set e | e in net.edges :: e.parent) + (set e | e in net.edges :: e.child)
  }

  function Parents(net: Net, n: string): set<string> {
    set e | e in net.edges && e.child == n :: e.parent
  }

  /** Adding a table requires it to be well formed and its scope to be made of nodes. */
  predicate TablesInModel(net: Net) {
    forall v :: v in net.cpds ==>
      net.cpds[v].variable == v && net.cpds[v].WellFormed() && ScopeInModel(net, net.cpds[v])
  }

  predicate ScopeInModel(net: Net, c: Cpd) {
    forall x :: x in c.Scope() ==> x in NodeSet(net)
  }

  /** Checking the model requires a table for every node ... */
  predicate EveryNodeHasTable(net: Net) {
    forall n :: n in NodeSet(net) ==> n in net.cpds
  }

  /** ... whose evidence is exactly the node's parents ... */
  predicate EvidenceIsParents(net: Net) {
    forall v :: v in net.cpds ==> (set x | x in net.cpds[v].evidence) == Parents(net, v)
  }

  /** ... and whose evidence cardinalities are the parents' own cardinalities. */
  predicate CardsAgree(net: Net) {
    forall v, i :: v in net.cpds && 0 <= i < |net.cpds[v].evidence| && i < |net.cpds[v].evidenceCard| ==>
      net.cpds[v].evidence[i] in net.cpds
      && net.cpds[net.cpds[v].evidence[i]].card == net.cpds[v].evidenceCard[i]
  }

  /** The structural checks a loaded network must pass. */
  predicate ValidNetwork(net: Net) {
    TablesInModel(net) && EveryNodeHasTable(net) && EvidenceIsParents(net) && CardsAgree(net)
  }

  const ResultNode: string := "Result"
  const LevelNames: seq<string> := ["Low", "High"]
  const AnswerNames: seq<string> := ["Incorrect", "Correct"]
  const SkillNames: seq<string> := ["Algebra", "Geometry", "Functions"]

  /** The prior table of one skill: two values, Low then High. */
  function PriorCpd(s: Skill, p: Prior): (c: Cpd)
    ensures c.WellFormed() && c.Scope() == [s.Name()] && c.card == 2
    ensures c.values.data == [p.low, p.high]
  {
    Cpd(s.Name(), 2, Tensor([2], [p.low, p.high]), [], [], map[s.Name() := LevelNames])
  }

  /** The outcome table: the Incorrect row then the Correct row, held as a 2 x 2 x 2 x 2 array. */
  function ResultCpd(): (c: Cpd)
    ensures c.WellFormed() && c.Scope() == [ResultNode] + SkillNames && c.card == 2
    ensures c.evidenceCard == [2, 2, 2]
  {
    assert Product([2, 2, 2, 2]) == 16 by {
      ProductCons(2, [2, 2, 2]);
      ProductCons(2, [2, 2]);
      ProductOfTwo(2, 2);
    }
    Cpd(ResultNode, 2, Tensor([2, 2, 2, 2], IncorrectRow + CorrectRow), SkillNames, [2, 2, 2],
        map[ResultNode := AnswerNames, "Algebra" := LevelNames, "Geometry" := LevelNames,
            "Functions" := LevelNames])
  }

  /** The four tables the session installs for the given skill priors. */
  function StandardCpds(ps: Priors): map<string, Cpd> {
    map["Algebra" := PriorCpd(Algebra, ps.algebra), "Geometry" := PriorCpd(Geometry, ps.geometry),
        "Functions" := PriorCpd(Functions, ps.functions), ResultNode := ResultCpd()]
  }

  const StandardNodes: seq<string> := SkillNames + [ResultNode]
  const StandardEdges: seq<Edge> :=
    [Edge("Algebra", ResultNode), Edge("Geometry", ResultNode), Edge("Functions", ResultNode)]

  /** The fork: the three skills as roots, Result as their common child. */
  function NetworkOf(ps: Priors): Net {
    Net(StandardNodes, StandardEdges, StandardCpds(ps))
  }

  /** The network a fresh build installs: the default priors and the fixed outcome table. */
  const DefaultNetwork: Net := NetworkOf(DefaultPriors)

  /** The graph is the fork, whatever order its nodes and edges were stored in. */
  predicate IsFork(net: Net) {
    NodeSet(net) == {"Algebra", "Geometry", "Functions", ResultNode}
    && (set e | e in net.edges) == {Edge("Algebra", ResultNode), Edge("Geometry", ResultNode),
                                     Edge("Functions", ResultNode)}
  }

  lemma ForkParents(net: Net)
    requires IsFork(net)
    ensures Parents(net, ResultNode) == {"Algebra", "Geometry", "Functions"}
    ensures forall v :: v != ResultNode ==> Parents(net, v) == {}
  {
    var es := set e | e in net.edges;
    forall e | e in net.edges
      ensures e.child == ResultNode
      ensures e.parent == "Algebra" || e.parent == "Geometry" || e.parent == "Functions"
    {
      assert e in es;
    }
    assert Edge("Algebra", ResultNode) in es;
    assert Edge("Geometry", ResultNode) in es;
    assert Edge("Functions", ResultNode) in es;
    assert "Algebra" in Parents(net, ResultNode);
    assert "Geometry" in Parents(net, ResultNode);
    assert "Functions" in Parents(net, ResultNode);
  }

  const StandardNames: set<string> := {"Algebra", "Geometry", "Functions", ResultNode}

  lemma NetworkOfNodes(ps: Priors)
    ensures NodeSet(NetworkOf(ps)) == StandardNames
    ensures NetworkOf(ps).cpds.Keys == StandardNames
  {
    var net := NetworkOf(ps);
    assert (set n | n in net.nodes) == StandardNames;
    assert (set e | e in net.edges :: e.parent) <= StandardNames;
    assert (set e | e in net.edges :: e.child) <= StandardNames;
  }

  /** The network built from any priors is the fork and passes the model check. */
  lemma NetworkOfIsValid(ps: Priors)
    ensures IsFork(NetworkOf(ps)) && ValidNetwork(NetworkOf(ps))
  {
    NetworkOfNodes(ps);
    ForkIsValid(NetworkOf(ps), ps);
  }

  /** Any fork carrying the four standard tables passes the model check. */
  lemma ForkIsValid(net: Net, ps: Priors)
    requires IsFork(net) && net.cpds == StandardCpds(ps)
    ensures ValidNetwork(net)
  {
    assert TablesInModel(net) by {
      forall v | v in net.cpds
        ensures net.cpds[v].variable == v && net.cpds[v].WellFormed() && ScopeInModel(net, net.cpds[v])
      {
      }
    }
    StandardEvidence(net, ps);
  }

  lemma StandardEvidence(net: Net, ps: Priors)
    requires IsFork(net) && net.cpds == StandardCpds(ps)
    ensures EvidenceIsParents(net) && CardsAgree(net)
  {
    ForkParents(net);
    forall v | v in net.cpds ensures (set x | x in net.cpds[v].evidence) == Parents(net, v) {
      if v == ResultNode {
        assert (set x | x in SkillNames) == {"Algebra", "Geometry", "Functions"};
      } else {
        assert v == Algebra.Name() || v == Geometry.Name() || v == Functions.Name();
      }
    }
  }

  /**
   * Rebuilding after an answer: the four tables are removed (a missing one
   * is ignored) and added again from the given priors; nodes, edges and any
   * other table stay as they were. The added tables' scopes must be nodes.
   */
  function Rebuild(net: Net, ps: Priors): (r: Net)
    requires forall v :: v in StandardNodes ==> v in NodeSet(net)
    ensures r.nodes == net.nodes && r.edges == net.edges
    ensures r.cpds.Keys == net.cpds.Keys + StandardCpds(ps).Keys
    ensures forall v :: v in StandardCpds(ps) ==> v in r.cpds && r.cpds[v] == StandardCpds(ps)[v]
    ensures forall v :: v in net.cpds && v !in StandardCpds(ps) ==> v in r.cpds && r.cpds[v] == net.cpds[v]
  {
    var kept := map v | v in net.cpds && v !in StandardCpds(ps) :: net.cpds[v];
    net.(cpds := kept + StandardCpds(ps))
  }

  /** A checked fork has a table for exactly its four nodes. */
  lemma ForkTables(net: Net)
    requires IsFork(net) && ValidNetwork(net)
    ensures net.cpds.Keys == StandardNames
  {
    forall v | v in net.cpds ensures v in StandardNames {
      assert v in net.cpds[v].Scope();
    }
  }

  /** Rebuilding a network whose tables are the four standard ones replaces all four. */
  lemma RebuildReplacesAll(net: Net, ps: Priors)
    requires net.cpds.Keys == StandardNames && NodeSet(net) == StandardNames
    ensures forall v :: v in StandardNodes ==> v in NodeSet(net)
    ensures Rebuild(net, ps).cpds == StandardCpds(ps)
  {
    assert forall v :: v in StandardNodes ==> v in StandardNames;
    assert StandardCpds(ps).Keys == StandardNames;
  }

  /** Rebuilding a checked fork gives exactly the network built from the new priors. */
  lemma RebuildFork(net: Net, ps: Priors)
    requires IsFork(net) && ValidNetwork(net)
    ensures forall v :: v in StandardNodes ==> v in NodeSet(net)
    ensures Rebuild(net, ps).cpds == NetworkOf(ps).cpds
    ensures IsFork(Rebuild(net, ps)) && ValidNetwork(Rebuild(net, ps))
  {
    ForkTables(net);
    RebuildReplacesAll(net, ps);
    var r := Rebuild(net, ps);
    assert NodeSet(r) == NodeSet(net);
    ForkIsValid(r, ps);
  }
}

=== FILE: outcome_table.dfy ===
/**
 * The fixed conditional table P(Result | Algebra, Geometry, Functions).
 * Columns are numbered Algebra*4 + Geometry*2 + Functions with Low = 0 and
 * High = 1, so Algebra varies slowest and Functions fastest.
 */
module OutcomeTable {
  import opened Skills

  /** The two states of the observed Result variable, in table order. */
  datatype Answer = Incorrect | Correct

  /** Row of the table for Result = Incorrect, exactly as the network installs it. */
  const IncorrectRow: seq<real> := [0.9, 0.8, 0.7, 0.6, 0.5, 0.4, 0.3, 0.2]

  /** Row of the table for Result = Correct. */
  const CorrectRow: seq<real> := [0.1, 0.2, 0.3, 0.4, 0.5, 0.6, 0.7, 0.8]

  const Columns: nat := 8

  /** Mixed-radix column of one parent assignment. */
  function ColumnOf(a: Level, g: Level, f: Level): (c: nat)
    ensures c < Columns
  {
    a.Index() * 4 + g.Index() * 2 + f.Index()
  }

  /** Entry of the table in the given row and column: P(Correct) climbs from 0.1 in
      column 0 to 0.8 in column 7 in steps of 0.1, and P(Incorrect) is its complement. */
  function Entry(r: Answer, c: nat): real
    requires c < Columns
  {
    if r == Correct then (c + 1) as real / 10.0 else (9 - c) as real / 10.0
  }

  /** P(Result = r | Algebra = a, Geometry = g, Functions = f). */
  function Likelihood(r: Answer, a: Level, g: Level, f: Level): real {
    Entry(r, ColumnOf(a, g, f))
  }

  /** Every column is a distribution over the Result states. */
  lemma ColumnsAreStochastic()
    ensures forall c :: 0 <= c < Columns ==>
      0.0 <= Entry(Incorrect, c) && 0.0 <= Entry(Correct, c) &&
      Entry(Incorrect, c) + Entry(Correct, c) == 1.0
  {
  }

  /** The entries are exactly the two literal rows the network installs. */
  lemma EntriesAreTheRows()
    ensures |IncorrectRow| == Columns && |CorrectRow| == Columns
    ensures forall c :: 0 <= c < Columns ==> Entry(Correct, c) == CorrectRow[c]
    ensures forall c :: 0 <= c < Columns ==> Entry(Incorrect, c) == IncorrectRow[c]
  {
  }

  /** No entry of the table is below 0.1. */
  lemma EntriesAtLeastOneTenth(r: Answer, a: Level, g: Level, f: Level)
    ensures Likelihood(r, a, g, f) >= 0.1
  {
  }

  /** The amount P(Correct) rises when one skill moves from Low to High: its column weight / 10. */
  function Shift(s: Skill): real {
    match s
    case Algebra => 0.4
    case Geometry => 0.2
    case Functions => 0.1
  }

  /** The parent assignment (Algebra, Geometry, Functions) that puts skill s at level x and
      the two other skills, in enumeration order, at y and z. */
  function Cell(s: Skill, x: Level, y: Level, z: Level): ParentStates {
    match s
    case Algebra => ParentStates(x, y, z)
    case Geometry => ParentStates(y, x, z)
    case Functions => ParentStates(y, z, x)
  }

  /** One assignment of the three parents of Result. */
  datatype ParentStates = ParentStates(algebra: Level, geometry: Level, functions: Level)

  /** Likelihood of an answer at a cell. */
  function CellLikelihood(r: Answer, s: Skill, x: Level, y: Level, z: Level): real {
    var c := Cell(s, x, y, z);
    Likelihood(r, c.algebra, c.geometry, c.functions)
  }

  /** Raising any single parent from Low to High raises P(Correct) by Shift(s) and lowers
      P(Incorrect) by the same amount. */
  lemma RaisingOneParent(s: Skill, y: Level, z: Level)
    ensures CellLikelihood(Correct, s, High, y, z) == CellLikelihood(Correct, s, Low, y, z) + Shift(s)
    ensures CellLikelihood(Incorrect, s, High, y, z) == CellLikelihood(Incorrect, s, Low, y, z) - Shift(s)
  {
  }

  /** P(Correct) strictly increases with every single parent. */
  lemma CorrectStrictlyIncreasing(s: Skill, y: Level, z: Level)
    ensures CellLikelihood(Correct, s, Low, y, z) < CellLikelihood(Correct, s, High, y, z)
  {
    RaisingOneParent(s, y, z);
  }
}

=== FILE: skills.dfy ===
/**
 * The three latent skill variables, their two mastery levels, the two-state
 * prior attached to each, and the topic-name lookups that select a skill.
 */
module Skills {

  /** The two states of every skill variable, in table order (Low = 0, High = 1). */
  datatype Level = Low | High {
    function Index(): nat {
      if Low? then 0 else 1
    }
  }

  /** The skill variables, in the order the network enumerates them. */
  datatype Skill = Algebra | Geometry | Functions {

    /** Node name of the skill in the network and in the belief state. */
    function Name(): string {
      match this
      case Algebra => "Algebra"
      case Geometry => "Geometry"
      case Functions => "Functions"
    }

    /** Position of the skill in enumeration order. */
    function Ordinal(): nat {
      match this
      case Algebra => 0
      case Geometry => 1
      case Functions => 2
    }

    /** Lower-case topic name under which callers refer to the skill. */
    function Topic(): string {
      match this
      case Algebra => "algebra"
      case Geometry => "geometry"
      case Functions => "functions"
    }
  }

  const AllSkills: seq<Skill> := [Algebra, Geometry, Functions]

  /** A two-state marginal table: P(Low) and P(High). */
  datatype Prior = Prior(low: real, high: real) {

    /** Probability of one level. */
    function Weight(l: Level): real {
      if l == Low then low else high
    }
  }

  /** A prior is a probability distribution over {Low, High}. */
  predicate ValidPrior(p: Prior) {
    0.0 <= p.low && 0.0 <= p.high && p.low + p.high == 1.0
  }

  /** The per-skill prior tables kept by the session, apart from the network. */
  datatype Priors = Priors(algebra: Prior, geometry: Prior, functions: Prior) {

    function Get(s: Skill): Prior {
      match s
      case Algebra => algebra
      case Geometry => geometry
      case Functions => functions
    }

    /** Replaces the prior of one skill and keeps the other two. */
    function With(s: Skill, p: Prior): (r: Priors)
      ensures r.Get(s) == p
      ensures forall t: Skill :: t != s ==> r.Get(t) == Get(t)
    {
      match s
      case Algebra => this.(algebra := p)
      case Geometry => this.(geometry := p)
      case Functions => this.(functions := p)
    }
  }

  predicate ValidPriors(ps: Priors) {
    forall s: Skill :: ValidPrior(ps.Get(s))
  }

  /** The session's starting priors: Algebra 0.6/0.4, Geometry 0.5/0.5, Functions 0.7/0.3. */
  const DefaultPriors: Priors :=
    Priors(Prior(0.6, 0.4), Prior(0.5, 0.5), Prior(0.7, 0.3))

  lemma DefaultPriorsValid()
    ensures ValidPriors(DefaultPriors)
  {
    forall s: Skill ensures ValidPrior(DefaultPriors.Get(s)) {
    }
  }

  /** ASCII lower-casing of one character; every other character is kept. */
  function LowerChar(c: char): char {
    if 'A' <= c <= 'Z' then (c as int + 32) as char else c
  }

  /** Lower-cases a topic string character by character. */
  function Lower(s: string): (r: string)
    ensures |r| == |s|
    ensures forall i :: 0 <= i < |s| ==> r[i] == LowerChar(s[i])
  {
    if |s| == 0 then [] else [LowerChar(s[0])] + Lower(s[1..])
  }

  /** Exact lookup of a topic key; anything unknown maps to Algebra. */
  function NodeOfKey(key: string): (s: Skill)
    ensures s != Algebra ==> key == s.Topic()
    ensures forall t: Skill :: key == t.Topic() ==> s == t
  {
    if key == "geometry" then Geometry
    else if key == "functions" then Functions
    else Algebra
  }

  /** Case-insensitive topic lookup used by the prior update. */
  function SkillOfTopic(topic: string): (s: Skill)
    ensures forall t: Skill :: Lower(topic) == t.Topic() ==> s == t
    ensures s != Algebra ==> Lower(topic) == s.Topic()
  {
    NodeOfKey(Lower(topic))
  }

  /** Upper-case spellings select the same skill as their lower-case topic name. */
  lemma LowerOfTopicName(s: Skill)
    ensures Lower(s.Topic()) == s.Topic()
    ensures SkillOfTopic(s.Topic()) == s
  {
    assert Lower(s.Topic()) == s.Topic();
  }

  /** Two strings agree under lower-casing character by character. */
  lemma LowerMatches(s: string, t: string)
    requires |s| == |t|
    requires forall i :: 0 <= i < |s| ==> LowerChar(s[i]) == t[i]
    ensures Lower(s) == t
  {
  }

  /** "GEOMETRY" and "Functions" reach their skill; "trig" falls back to Algebra. */
  lemma TopicLookupExamples()
    ensures SkillOfTopic("GEOMETRY") == Geometry
    ensures SkillOfTopic("Functions") == Functions
    ensures SkillOfTopic("trig") == Algebra
  {
    LowerMatches("GEOMETRY", "geometry");
    LowerMatches("Functions", "functions");
    assert Lower("trig")[0] == 't';
  }
}

=== FILE: tensors.dfy ===
/**
 * Dense real arrays as numpy holds them: a shape and the elements in
 * row-major order. Only the operations the persistence code applies are
 * modelled: `tolist` of a rank-2 array, flattening, building an array from a
 * list of lists, and the two reshapes the loader uses.
 */
module Tensors {
  import opened Wrappers

  datatype Tensor = Tensor(shape: seq<nat>, data: seq<real>) {
    function Rank(): nat {
      |shape|
    }
  }

  /** Number of elements of an array of the given shape (1 for rank 0). */
  function Product(dims: seq<nat>): nat {
    if |dims| == 0 then 1 else dims[0] * Product(dims[1..])
  }

  /** The element count agrees with the shape. */
  predicate WellShaped(t: Tensor) {
    |t.data| == Product(t.shape)
  }

  lemma ProductOfTwo(a: nat, b: nat)
    ensures Product([a, b]) == a * b
  {
    assert [a, b][1..] == [b];
    assert [b][1..] == [];
    assert Product([b]) == b * Product([]);
  }

  lemma ProductCons(a: nat, rest: seq<nat>)
    ensures Product([a] + rest) == a * Product(rest)
  {
    assert ([a] + rest)[1..] == rest;
  }

  /** `count` consecutive slices of `width` elements: numpy's `tolist` of a count x width array. */
  function Rows(data: seq<real>, width: nat, count: nat): (rows: seq<seq<real>>)
    requires |data| == width * count
    ensures |rows| == count
    ensures forall i :: 0 <= i < count ==> |rows[i]| == width
    decreases count
  {
    if count == 0 then []
    else
      assert |data[width..]| == width * (count - 1);
      [data[..width]] + Rows(data[width..], width, count - 1)
  }

  /** Concatenation of the rows: numpy's `flatten` of the array a list of lists builds. */
  function Flatten(rows: seq<seq<real>>): seq<real> {
    if |rows| == 0 then [] else rows[0] + Flatten(rows[1..])
  }

  /** All rows have the same length as the first. */
  predicate Uniform(rows: seq<seq<real>>) {
    forall i :: 0 <= i < |rows| ==> |rows[i]| == |rows[0]|
  }

  /** Splitting into rows and concatenating them again gives the elements back. */
  lemma {:induction false} FlattenRows(data: seq<real>, width: nat, count: nat)
    requires |data| == width * count
    ensures Flatten(Rows(data, width, count)) == data
    decreases count
  {
    if count == 0 {
    } else {
      assert |data[width..]| == width * (count - 1);
      FlattenRows(data[width..], width, count - 1);
      assert data == data[..width] + data[width..];
    }
  }

  /** A list of rows of one width holds width * count elements. */
  lemma {:induction false} FlattenLength(rows: seq<seq<real>>, width: nat)
    requires forall i :: 0 <= i < |rows| ==> |rows[i]| == width
    ensures |Flatten(rows)| == width * |rows|
  {
    if |rows| > 0 {
      FlattenLength(rows[1..], width);
    }
  }

  /** Conversely, cutting the concatenation of equal-width rows at that width gives the rows back. */
  lemma {:induction false} RowsOfFlatten(rows: seq<seq<real>>, width: nat)
    requires forall i :: 0 <= i < |rows| ==> |rows[i]| == width
    ensures |Flatten(rows)| == width * |rows|
    ensures Rows(Flatten(rows), width, |rows|) == rows
  {
    FlattenLength(rows, width);
    if |rows| > 0 {
      RowsOfFlatten(rows[1..], width);
      var f := Flatten(rows);
      assert f[..width] == rows[0];
      assert f[width..] == Flatten(rows[1..]);
    }
  }

  /** The rows of one element each: `[[v] for v in data]`. */
  function Column(data: seq<real>): (rows: seq<seq<real>>)
    ensures |rows| == |data|
    ensures forall i :: 0 <= i < |data| ==> rows[i] == [data[i]]
  {
    seq(|data|, i requires 0 <= i < |data| => [data[i]])
  }

  /** A column list flattens back to its elements. */
  lemma {:induction false} FlattenColumn(data: seq<real>)
    ensures Flatten(Column(data)) == data
  {
    if |data| > 0 {
      FlattenColumn(data[1..]);
      assert Column(data)[1..] == Column(data[1..]);
    }
  }

  /**
   * `np.array` of a list of lists of numbers: the empty list gives a rank-1
   * array of shape (0,), equal-length rows give a rank-2 array, and rows of
   * different lengths are rejected (None).
   */
  function ArrayOf(rows: seq<seq<real>>): (r: Option<Tensor>)
    ensures r.Some? <==> Uniform(rows)
    ensures r.Some? ==> WellShaped(r.value) && r.value.data == Flatten(rows) && 1 <= r.value.Rank() <= 2
    ensures r.Some? && |rows| == 0 ==> r.value.shape == [0]
    ensures r.Some? && |rows| > 0 ==> r.value.shape == [|rows|, |rows[0]|]
  {
    if |rows| == 0 then
      Some(Tensor([0], []))
    else if Uniform(rows) then
      FlattenLength(rows, |rows[0]|);
      ProductOfTwo(|rows|, |rows[0]|);
      Some(Tensor([|rows|, |rows[0]|], Flatten(rows)))
    else
      None
  }

  /** `reshape(n, -1)` with n the first dimension: one row per leading index. */
  function ReshapeRows(t: Tensor): (r: Tensor)
    requires WellShaped(t) && t.Rank() >= 1
    ensures WellShaped(r) && r.data == t.data && r.shape == [t.shape[0], Product(t.shape[1..])]
  {
    ProductOfTwo(t.shape[0], Product(t.shape[1..]));
    Tensor([t.shape[0], Product(t.shape[1..])], t.data)
  }

  /** `reshape(-1, 1)`: one element per row. */
  function ReshapeColumn(t: Tensor): (r: Tensor)
    ensures WellShaped(r) && r.data == t.data && r.shape == [|t.data|, 1]
  {
    ProductOfTwo(|t.data|, 1);
    Tensor([|t.data|, 1], t.data)
  }
}

=== FILE: wrappers.dfy ===
/** Failure-compatible Option and Result datatypes used throughout the model. */
module Wrappers {

  datatype Option<+T> = None | Some(value: T) {

    predicate IsFailure() {
      None?
    }

    function PropagateFailure<U>(): Option<U>
      requires None?
    {
      None
    }

    function Extract(): T
      requires Some?
    {
      value
    }
  }

  datatype Result<+T, +E> = Success(value: T) | Failure(error: E) {

    predicate IsFailure() {
      Failure?
    }

    function PropagateFailure<U>(): Result<U, E>
      requires Failure?
    {
      Failure(error)
    }

    function Extract(): T
      requires Success?
    {
      value
    }
  }
}
